=== FILE: README.md ===
# Presentation generator: a Dafny model

This project models the core of a small Flask application that turns a topic
into a slide deck:

- A language model is asked for a presentation outline.
- The JSON in its answer is recovered.
- A loosely typed dictionary becomes a presentation of a theme and slides.
- The deck is rendered into a PowerPoint file, or exported again as PDF or
  PPTX from the browser's copy.

The model is written in pure functions over a `Json` datatype. That datatype
mirrors what Python holds after `json.loads`. A dict keeps both its entries
and its insertion order, because the code sometimes iterates a dict where it
expects a list.

Python's built-ins are modelled where the code depends on them:

- truthiness, `len`, iteration, `dict.get` and `in`;
- `str.find`, `str.rfind`, slicing, `split`, `join`, `strip`, `lstrip` and
  `lower`.

Exceptions become error variants, so the `try`/`except` structure of each
function decides the outcome.

Modules follow the program's structure:

| module | models |
|---|---|
| `Text`, `JsonValue` | the Python string and value operations the core relies on |
| `Models` | `Presentation.from_dict` and the data classes |
| `LlmService` | recovering JSON from the language model's reply |
| `ContextManager` | dotted-path lookups in the configuration dictionary |
| `PresentationController` | the three HTTP routes' decisions and the PDF sweep |
| `DeckFiles` | saved deck names and the 20-newest retention rule |
| `PresentationGenerator` | the render plan of a deck: which renderer draws each slide, what it draws, and where an exception cuts it short |

Four behaviours of the program are parameters of the model:

- `json.loads` is `parse: string -> Option<Json>`.
- `RGBColor.from_string` is `fromString: string -> Option<Rgb>`.
- The language-model step seen by the preview route is `llm: string -> LlmOutcome`.
- The chat-completion call is reduced to its reply, `ChatReply`.

## Where the code and its description disagree

The model follows the code in each case below.

- No value is validated against an enumeration. Slide `type`, `layout`,
  colours, titles and subtitles are copied whatever their JSON type is.
- `slides` may be empty. `from_dict` only demands that the keys `title`,
  `subtitle` and `slides` are present.
- The language-model service does not strip code fences or repair trailing
  commas. It does not scan several candidates either. It tries the whole text,
  then the widest span from the first `{` to the last `}`, and nothing else.
- The preview route has a 503 branch for connection errors. The real service
  catches every exception and returns `None`, so that branch is never taken
  and neither is the 400 branch for `ValueError` (`RealServiceNever503`).
- The preview route inserts a four-colour theme (with `background_color`).
  `from_dict` reads only three colours.

## Model

| member | source | states |
|---|---|---|
| `Text.Find` | src/services/llm_service.py:24 | the index found holds the first `{`, or -1 exactly when there is none |
| `Text.RFind` | src/services/llm_service.py:25 | the index found holds the last `}`, or -1 exactly when there is none |
| `Text.Slice` | src/services/llm_service.py:27 | Python slicing: the ordinary substring for in-range bounds, empty when the end precedes the start |
| `Text.JoinSplit` | src/utils/context_manager.py:44 | joining the pieces of `split` with the separator gives the original string back |
| `Text.SplitJoin` | src/services/presentation_generator.py:131 | splitting a join of separator-free pieces gives the pieces back |
| `Text.SplitPiecesHaveNoSep` | src/utils/context_manager.py:44 | no key segment of a dotted path contains a dot |
| `Text.SplitNoSep` | src/utils/context_manager.py:44 | a path without dots is a single segment |
| `Text.SplitConcat` | src/utils/context_manager.py:44 | the segments of `a.b` are the segments of `a` followed by those of `b` |
| `Text.Strip` | src/services/llm_service.py:97 | the result has no whitespace at either end, and it is empty exactly when the input is all whitespace |
| `Text.LStrip` | src/controllers/presentation_controller.py:195-198 | only a leading run of the character is removed, and the result does not start with it |
| `Text.Lower` | src/services/presentation_generator.py:341-343 | the result has the same length, and each character is lower-cased |
| `Text.ContainsAt` | src/controllers/presentation_controller.py:90 | substring membership holds exactly when the substring occurs at some position |
| `JsonValue.Iterate` | src/models/presentation.py:48 | a loop over a value runs exactly when `len` is defined on it, and visits `len` items |
| `JsonValue.First` | src/controllers/presentation_controller.py:217 | `x[0]` on a non-empty list or string is the first item iteration visits; on a dict it raises |
| `JsonValue.In` | src/controllers/presentation_controller.py:136 | `in` is dict-key or list-element membership, and it raises on numbers, booleans and `None` |
| `JsonValue.TruthyContainerIsNonEmpty` | src/controllers/presentation_controller.py:73 | a container is truthy exactly when iterating it visits something |
| `JsonValue.NonEmptyObjTruthy` | src/controllers/presentation_controller.py:73 | a dict holding a key is truthy |
| `Models.ThemeFieldwise` | src/models/presentation.py:39-44 | each colour comes from the input theme when its key is there, and otherwise from its own default (`#0072C6`, `#404040`, `#00B294`) |
| `Models.NormalizeContentCases` | src/models/presentation.py:53-57 | a string becomes a one-element list, a list is kept and anything else is empty; normalising twice changes nothing |
| `Models.NormalizeSlide` | src/models/presentation.py:59-77 | a slide fails exactly for a `table` slide whose `table_data` is not a dict, with `AttributeError`; table data is kept exactly for `type == "table"` with a `table_data` key |
| `Models.SlideDefaults` | src/models/presentation.py:68-76 | missing slide fields take `Untitled Slide`, `content`, `centered` or `None`; present ones are copied as they are |
| `Models.TableDataLifted` | src/models/presentation.py:59-65 | the lifted table data holds `headers` and `rows`, each defaulting to an empty list |
| `Models.BuildSlidesSpec` | src/models/presentation.py:46-81 | non-dict entries are skipped; the loop succeeds exactly when no dict entry is a malformed table slide, and then yields one normalised slide per dict entry, in order |
| `Models.FromDict` | src/models/presentation.py:28-88 | a non-dict raises `ValueError`; success implies the required keys are present, with title and subtitle copied and one slide per dict entry of `slides` |
| `Models.FromDictMissingField` | src/models/presentation.py:33-36 | the error names the first missing key, in the order title, subtitle, slides |
| `Models.FromDictTheme` | src/models/presentation.py:38-44 | no `theme` key gives the default theme; a dict theme is read field by field; a non-dict theme raises `AttributeError` |
| `Models.FromDictSlides` | src/models/presentation.py:46-81 | a non-iterable `slides` raises `TypeError`; otherwise conversion succeeds exactly when no dict entry is a malformed table slide, and then each slide is the normalised entry |
| `Models.SlideRoundTrip` | src/models/presentation.py:67-78 | a slide written out as a dict and read back is the same slide |
| `Models.ThemeRoundTrip` | src/models/presentation.py:39-44 | a theme written out as a dict and read back is the same theme |
| `Models.SlideDictsOfDicts` | src/models/presentation.py:48-50 | every slide written out is a dict, so the slide loop skips none of them |
| `Models.SlidesRoundTrip` | src/models/presentation.py:47-81 | a list of slides written out as dicts and read back is the same list |
| `Models.FromDictNormalized` | src/models/presentation.py:59-65 | every presentation `from_dict` builds carries table data only on `table` slides |
| `Models.FromDictRoundTrip` | src/models/presentation.py:83-88 | reading back the dict of a normalised presentation gives the same presentation |
| `Models.FromDictIdempotent` | src/models/presentation.py:28-88 | converting a result back to a dict and converting again changes nothing |
| `LlmService.WidestSpanContainsAll` | src/services/llm_service.py:24-27 | every `{...}` span of the text lies inside the span from the first `{` to the last `}` |
| `LlmService.BraceCandidate` | src/services/llm_service.py:24-27 | the second candidate exists exactly when both braces occur; it is the widest brace span, or empty exactly when every `}` precedes every `{` |
| `LlmService.ExtractJson` | src/services/llm_service.py:16-33 | the whole text's parse wins; failing that, the brace candidate's parse; without a candidate, nothing |
| `LlmService.ExtractFromTwoCandidates` | src/services/llm_service.py:18-33 | a result is the parse of the whole text, of the empty string, or of the widest brace span |
| `LlmService.NoBracesOnlyDirectParse` | src/services/llm_service.py:24-26 | without a `{` or without a `}`, only the direct parse can succeed |
| `LlmService.InvertedBracesOnlyDirectParse` | src/services/llm_service.py:24-28 | when every `}` precedes every `{`, only the direct parse can succeed |
| `LlmService.DirectParseWins` | src/services/llm_service.py:18-20 | JSON of any kind that parses whole is returned unchanged |
| `LlmService.GenerateContent` | src/services/llm_service.py:97-111 | a returned value is truthy and is the extraction from the stripped reply; every truthy extraction is returned; a failed call or missing content gives `None` |
| `LlmService.FalsyResultsBecomeNone` | src/services/llm_service.py:102-105 | `null`, `false`, `0`, `""`, `[]` and `{}` all become `None` |
| `ContextManager.Resolve` | src/utils/context_manager.py:43-45 | a non-empty path fails on anything that is not a dict |
| `ContextManager.ResolveConcat` | src/utils/context_manager.py:43-45 | resolving a concatenated path is resolving its first part and then its second |
| `ContextManager.Get` | src/utils/context_manager.py:37-48 | a context that is not a dict always gives the default |
| `ContextManager.GetFoundOrDefault` | src/utils/context_manager.py:42-48 | a found value is returned even when falsy; the default only stands in for a failed lookup |
| `ContextManager.GetSingleKey` | src/utils/context_manager.py:44-46 | a path without dots is a plain key lookup in the context |
| `ContextManager.GetEmptyPath` | src/utils/context_manager.py:44 | the empty path looks up the empty key |
| `ContextManager.GetCompose` | src/utils/context_manager.py:37-48 | `get("p.q")` is `q` looked up inside what `p` finds, or the default when `p` finds nothing |
| `ContextManager.GetEmptyMiddleKey` | src/utils/context_manager.py:44-45 | `a..b` walks through the empty key |
| `ContextManager.GetAll` | src/utils/context_manager.py:50-52 | the result is truthy or `{}`; every falsy context (unloaded, `{}`, `[]`, `0`, `""`, `false`) gives `{}`; a truthy one is returned as is |
| `ContextManager.GetTwoKeys` | src/utils/context_manager.py:44-46 | a two-segment path descends two dict levels |
| `ContextManager.GetUnderKey` | src/utils/context_manager.py:44-46 | a path whose first segment has no dot descends into that key first, then along the rest of the path |
| `ContextManager.GetPresentationDefaults` | src/utils/context_manager.py:54-56 | the `presentation_defaults` entry, or `{}` when absent |
| `ContextManager.GetColors` | src/utils/context_manager.py:58-60 | the `colors` entry under `presentation_defaults`, or `{}` |
| `ContextManager.GetFonts` | src/utils/context_manager.py:62-64 | the `fonts` entry under `presentation_defaults`, or `{}` |
| `ContextManager.ColorsInsideDefaults` | src/utils/context_manager.py:54-60 | the colours are the `colors` entry of the presentation defaults |
| `ContextManager.GetSlideTypeInfo` | src/utils/context_manager.py:66-68 | the entry at `slide_types` followed by the dot-separated segments of the type, or `None` when that path fails |
| `ContextManager.SlideTypeInfoDotFree` | src/utils/context_manager.py:66-68 | a type without dots is looked up directly under `slide_types` |
| `ContextManager.GetLlmSettings` | src/utils/context_manager.py:70-72 | the `llm_settings` entry, or `{}` when absent |
| `ContextManager.GetFilePaths` | src/utils/context_manager.py:74-76 | the `file_paths` entry, or `{}` when absent |
| `PresentationController.CheckTopic` | src/controllers/presentation_controller.py:77-80 | an accepted topic is the request's string with something besides whitespace; reading the topic raises exactly for a non-dict body or a truthy non-string topic |
| `PresentationController.WithDefaultTheme` | src/controllers/presentation_controller.py:89-96 | content with a theme is unchanged; a dict without one gains exactly the four-colour default theme, with its other entries and order kept; other values raise |
| `PresentationController.DefaultThemeIdempotent` | src/controllers/presentation_controller.py:89-96 | adding the default theme twice is adding it once |
| `PresentationController.AfterLlm` | src/controllers/presentation_controller.py:85-123 | 200 exactly when content came back and took a theme; `ValueError` gives 400, `ConnectionError` 503, anything else or `None` gives 500 with the generic message |
| `PresentationController.GeneratePreview` | src/controllers/presentation_controller.py:69-130 | the status is one of 200/400/500/503; an unreadable body gives 500; a falsy body gives 400 "No data provided"; a truthy body that is not a dict, or whose truthy `topic` is not a string, gives 500 "An error occurred while processing your request"; 200 needs a valid topic |
| `PresentationController.UnreadableTopicFails` | src/controllers/presentation_controller.py:69-130 | the bodies `[1]`, `"x"` and `{"topic": 5}` make reading the topic raise and get 500 |
| `PresentationController.TopicRequired` | src/controllers/presentation_controller.py:77-80 | a missing, falsy or whitespace-only topic gives 400 without consulting the language model |
| `PresentationController.ValidRequestDefersToLlm` | src/controllers/presentation_controller.py:77-87 | a valid request hands its unstripped topic to the language model, whose outcome alone decides the response |
| `PresentationController.PreviewKeepsExistingTheme` | src/controllers/presentation_controller.py:89-100 | a preview keeps a theme the content already had, and otherwise carries the four-colour default |
| `PresentationController.RealServiceNever503` | src/controllers/presentation_controller.py:102-116 | with the real service the route never answers 503, and 400 comes only from request validation |
| `PresentationController.PresentationOf` | src/controllers/presentation_controller.py:135-141 | 400 exactly for a falsy body or one without `presentation`; a document exactly for a truthy dict holding it |
| `PresentationController.ExportPdf` | src/controllers/presentation_controller.py:132-178 | the PDF route rejects exactly what the gate rejects, and prints the request's `presentation` entry exactly when the body is a non-empty dict holding it |
| `PresentationController.ColourText` | src/controllers/presentation_controller.py:193-198 | a colour's text is its string value or default with leading `#` removed; a non-string value raises |
| `PresentationController.ExportColour` | src/controllers/presentation_controller.py:195-198 | a colour exists exactly when its text is a string (or the default) that converts, and it is that conversion |
| `PresentationController.ColoursOf` | src/controllers/presentation_controller.py:192-200 | an export has colours exactly for a dict theme whose four colours, each defaulting on its own, are strings that all convert; each colour is the conversion of its own text |
| `PresentationController.EmptyThemeDefaults` | src/controllers/presentation_controller.py:193-198 | with an empty theme the colours are `0072C6`, `404040`, `00B294` and `FFFFFF` |
| `PresentationController.GridCells` | src/controllers/presentation_controller.py:226-232 | the cells are written exactly when every row can be iterated and fits the columns, and each cell holds its row's entry |
| `PresentationController.TableBody` | src/controllers/presentation_controller.py:214-232 | a table has `len(content)` rows and `len(content[0])` columns; no rows or no columns raise in `add_table`; every iterable content with a non-empty first row whose rows all fit exports |
| `PresentationController.EmptyFirstRowFails` | src/controllers/presentation_controller.py:216-224 | an empty first row means no columns, and the export fails |
| `PresentationController.RectangularTableExports` | src/controllers/presentation_controller.py:214-232 | non-empty rows all as long as the first one export as a full grid of that size |
| `PresentationController.ExportSlideOf` | src/controllers/presentation_controller.py:203-245 | an exported slide exists exactly for a dict with a string title and a type whose table, for an exact `table` type, exports; that type draws its grid, any other draws the points of a list content |
| `PresentationController.ExportSlides` | src/controllers/presentation_controller.py:202-245 | the deck has one slide per entry, in order, and fails if any entry fails |
| `PresentationController.ExportPptx` | src/controllers/presentation_controller.py:180-262 | the PPTX route rejects exactly what the gate rejects; it answers with a deck exactly when the presentation is a dict whose theme converts and whose `slides` iterate and all export, and the deck holds those colours and exactly those slides in order |
| `PresentationController.ExportRoutesShareGate` | src/controllers/presentation_controller.py:136-185 | both export routes answer 400 for the same requests |
| `PresentationController.PdfSweep` | src/controllers/presentation_controller.py:53-67 | a file is removed exactly when it is a visible `.pdf` more than one hour old |
| `PresentationController.SweepBoundary` | src/controllers/presentation_controller.py:59-60 | a PDF exactly one hour old stays, and one microsecond older goes |
| `DeckFiles.Digits` | src/services/presentation_generator.py:349 | a zero-padded field has exactly the width and only digits |
| `DeckFiles.DigitsRoundTrip` | src/services/presentation_generator.py:349 | reading a zero-padded field back gives the number when it fits the width |
| `DeckFiles.DeckFileName` | src/services/presentation_generator.py:349-350 | a saved name is 33 characters: `presentation_`, the timestamp, `.pptx` |
| `DeckFiles.SavedDecksArePruned` | src/services/presentation_generator.py:43-50 | every saved name matches the clean-up pattern `presentation_*.pptx` |
| `DeckFiles.TimestampRoundTrip` | src/services/presentation_generator.py:349 | `%Y%m%d_%H%M%S` read back gives the date and time for four-digit years |
| `DeckFiles.DeckFileNameRoundTrip` | src/services/presentation_generator.py:349-350 | a saved name read back gives the time it was taken at |
| `DeckFiles.DeckFileNameInjective` | src/services/presentation_generator.py:349-350 | distinct times give distinct names |
| `DeckFiles.Insert` | src/services/presentation_generator.py:46 | inserting into a list sorted by creation time keeps it sorted and adds exactly that file |
| `DeckFiles.SortByCtime` | src/services/presentation_generator.py:46 | the sort is by creation time and is a permutation of its input |
| `DeckFiles.MatchingDecks` | src/services/presentation_generator.py:43 | exactly the files whose names match the pattern |
| `DeckFiles.RootSweep` | src/services/presentation_generator.py:34-40 | the working directory loses exactly the names matching the pattern |
| `DeckFiles.RetentionKeepsNewest` | src/services/presentation_generator.py:43-52 | removed and kept decks split the matching ones; nothing goes at 20 or fewer; above that exactly 20 stay and no removed deck is newer than a kept one |
| `PresentationGenerator.SubtitleOf` | src/services/presentation_generator.py:130-132 | the subtitle is the lines joined by newlines exactly when every content item is a string |
| `PresentationGenerator.SubtitleKeepsLines` | src/services/presentation_generator.py:131-132 | splitting the subtitle on newlines gives the content lines back |
| `PresentationGenerator.TitleSlideAsWritten` | src/services/presentation_generator.py:88-153 | the title renderer as written: a rejected title draws neither subtitle nor line; otherwise the decorative line is drawn exactly when a subtitle was drawn |
| `PresentationGenerator.EmptyTitleSlideLosesLine` | src/services/presentation_generator.py:139-146 | a title slide with a string title and no content loses its decorative line |
| `PresentationGenerator.TitleSlidePlan` | src/services/presentation_generator.py:88-153 | the corrected title renderer: the line is drawn unless the title is rejected or the subtitle raised |
| `PresentationGenerator.TitlePlansDifferOnlyWhenEmpty` | src/services/presentation_generator.py:119-150 | the two title renderers differ exactly on slides with a string title and no content |
| `PresentationGenerator.ContentSlidePlan` | src/services/presentation_generator.py:155-219 | a content slide has a bullet per content item and the accent bar when its title is a string, and neither otherwise |
| `PresentationGenerator.RowFill` | src/services/presentation_generator.py:304-307 | no data row takes the header's fill |
| `PresentationGenerator.DataCells` | src/services/presentation_generator.py:291-307 | every data row is written exactly when each can be iterated and fits the columns |
| `PresentationGenerator.DataCellsSound` | src/services/presentation_generator.py:291-307 | each written cell lies in its row and column, takes its row's fill and holds its row's entry |
| `PresentationGenerator.DataCellsComplete` | src/services/presentation_generator.py:291-307 | when every row fits, every entry of every row is written |
| `PresentationGenerator.TablePlanOf` | src/services/presentation_generator.py:249-307 | the corrected table, with integral column widths: it exists exactly when the headers and rows are truthy and have a length; `len(rows)+1` by `len(headers)`, headers in row 0 with the header fill, data rows alternating fills |
| `PresentationGenerator.TablePlanAsWritten` | src/services/presentation_generator.py:249-275 | the table as written: built under the same conditions and with the same size, but the float column width raises before any header or cell is written |
| `PresentationGenerator.TablePlansDifferOnlyWhenBuilt` | src/services/presentation_generator.py:266-307 | the two table plans differ exactly where a table gets built, and there the program's stays empty |
| `PresentationGenerator.TableSlidePlan` | src/services/presentation_generator.py:221-323 | with the corrected table, a rejected title leaves no table and no bar; otherwise the accent bar is drawn exactly when no exception cut the table short |
| `PresentationGenerator.TableSlideAsWritten` | src/services/presentation_generator.py:221-323 | as written, a rejected title leaves no table; the accent bar is drawn exactly when the title is a string and no table was attempted |
| `PresentationGenerator.WellFormedTableDrawn` | src/services/presentation_generator.py:249-307 | with the corrected table, list headers and rows no longer than the headers are drawn whole, every cell in place |
| `PresentationGenerator.WellFormedTableLeftEmpty` | src/services/presentation_generator.py:266-275 | as written, the same table is built empty and the slide has no accent bar |
| `PresentationGenerator.RendererFor` | src/services/presentation_generator.py:340-346 | `title` and `table` pick their renderers after lower-casing; every other type gets the content renderer |
| `PresentationGenerator.DispatchIgnoresCase` | src/services/presentation_generator.py:341-343 | types that differ only in letter case pick the same renderer |
| `PresentationGenerator.RenderSlideAsWritten` | src/services/presentation_generator.py:340-346 | each slide is drawn by the program's renderer its type picks; a rejected title leaves only the title; otherwise a title slide has its line exactly when it has content that joins, and a table slide has the as-written table |
| `PresentationGenerator.RenderSlide` | src/services/presentation_generator.py:340-346 | the corrected renderers: a rejected title still ends the slide; otherwise a title slide has its line unless its content fails to join, and a table slide has the filled table |
| `PresentationGenerator.RenderersDifferOnlyWhenRepaired` | src/services/presentation_generator.py:119-153 | the program's and the corrected renderers differ exactly on slides with a string title that are title slides without content or table slides whose table gets built |
| `PresentationGenerator.RenderSlides` | src/services/presentation_generator.py:339-346 | slides are drawn in order by the program's renderers; a type that is not a string stops the loop at that slide |
| `PresentationGenerator.Generate` | src/services/presentation_generator.py:325-358 | the deck grows from the previous one by the program's leading title slide and the slides its renderers draw; a name is returned exactly when every slide type is a string |
| `PresentationGenerator.LeadingTitleShowsSubtitle` | src/services/presentation_generator.py:328-337 | with a string title the leading slide shows the string subtitle and the decorative line, and with any other title neither; both title renderers agree on it |
| `PresentationGenerator.GenerateDispatch` | src/services/presentation_generator.py:339-346 | in a successful call each input slide's drawn slide keeps its title, its renderer follows its lower-cased type, and a table slide carries the as-written table, or none when its title is rejected |
| `PresentationGenerator.SecondCallRepeatsFirstDeck` | src/services/presentation_generator.py:325-352 | a second call saves the first call's slides again, ahead of its own |
| `PresentationGenerator.GenerateFresh` | src/services/presentation_generator.py:325-358 | the corrected generator: each saved deck holds exactly the leading title slide and the presentation's own slides, drawn by the corrected renderers |
| `PresentationGenerator.FreshDeckPerCall` | src/services/presentation_generator.py:325-352 | a second call of the generator as written saves the first deck followed by exactly what a first call saves |
| `PresentationGenerator.DecksAgreeOnShape` | src/services/presentation_generator.py:325-352 | a first call as written and the corrected generator return the same name, and their decks have the same length and the same leading slide |
| `PresentationGenerator.DrawnSlideDiffersOnlyWhenRepaired` | src/services/presentation_generator.py:339-346 | a slide drawn by the program's renderers differs from the corrected one exactly when it is a title slide without content or a table slide whose table gets built |
| `PresentationGenerator.DeckSlideDiffersOnlyWhenRepaired` | src/services/presentation_generator.py:325-352 | past the leading slide, the deck as written and the corrected deck differ exactly on those slides |

## Findings

| source | as written | input that shows it | evidently intended | confidence | as-written member | corrected member |
|---|---|---|---|---|---|---|
| src/services/presentation_generator.py:119-150 | `subtitle_top` is assigned only when the slide has content, yet the decorative line's position reads it; `UnboundLocalError` is swallowed by the renderer's `except` | a slide `{"type": "title", "title": "Q&A"}` | the decorative line is drawn on every title slide | not executed | `PresentationGenerator.TitleSlideAsWritten` (`EmptyTitleSlideLosesLine`) | `PresentationGenerator.TitleSlidePlan` (`TitlePlansDifferOnlyWhenEmpty`, `RenderersDifferOnlyWhenRepaired`); `GenerateFresh` uses it |
| src/services/presentation_generator.py:18-352 | the `python-pptx` presentation is created once in the constructor, and every `generate` call appends to it and saves all of it | two `generate` calls on one generator, for presentations `p` then `q` | each saved file holds only its own presentation | not executed | `PresentationGenerator.SecondCallRepeatsFirstDeck` | `PresentationGenerator.GenerateFresh` (`FreshDeckPerCall`, `DeckSlideDiffersOnlyWhenRepaired`) |
| src/services/presentation_generator.py:272-275 | `table_width / num_cols` is true division, so each column width is a float; python-pptx accepts only integral coordinates and raises `TypeError`, which the renderer's `except` swallows before any header or cell is written | a slide `{"type": "table", "table_data": {"headers": ["A"], "rows": [["1"]]}}` | the columns share the width evenly (`//`) and the table is filled | not executed; rests on python-pptx's coordinate check, which is outside this model | `PresentationGenerator.TablePlanAsWritten` (`WellFormedTableLeftEmpty`) | `PresentationGenerator.TablePlanOf` (`WellFormedTableDrawn`, `TablePlansDifferOnlyWhenBuilt`); `GenerateFresh` uses it |

## Left out

- Geometry, fonts, sizes, background shapes and transparency of `python-pptx`, except where they raise. Three such places are modelled. The text setter accepts only strings, so a slide whose title is not a string keeps only its background and the title box. A table column's width must be an integer. `add_table` divides the table's height by its row count and its width by its column count.
- `RGBColor.from_string` is the parameter `fromString`. Its hex validation belongs to the library.
- `json.loads` is the parameter `parse`. Its grammar belongs to the library.
- The OpenAI chat call, its prompt, temperature and token limit: only its outcome, `ChatReply`, is modelled.
- Flask: routing, `request.get_json` and `jsonify`. The request body is `Body`. The unused `style` field is not modelled.
- Exports as files: WeasyPrint, `render_template`, the temporary HTML file and `send_file`. The PDF route is modelled up to the presentation it hands to the template, and the PPTX route up to its deck plan.
- The real filesystem and clock: they are parameters. File lists are `FileEntry` sequences with integer creation times, and the current time is a parameter.
- Errors from `os.remove`: they are logged and skipped, so a removal list means "attempted".
- Local time and daylight saving: times are compared as given.
- The microsecond rounding of `getctime`.
- Logging.
- Loading `context.json`, and the module-level singleton: the loaded dictionary is a parameter, `JNull` when never loaded.
- `theme.py`, `app.py` and `app.js`: they are callers and types, not core logic.
- `DeckFiles.TimestampRoundTrip`: only four-digit years (1000 to 9999) are covered, because `%Y` padding below 1000 depends on the platform.
- `PresentationController.ExportSlideOf`: titles must be strings, because the text setter of `python-pptx` splits the text; other title types are counted as a server error.
- `PresentationGenerator.DataCells`: cell values are kept as JSON values; `str()` of them is not modelled.
- `PresentationController.GridCells`: cell values are kept as JSON values; `str()` of them is not modelled.
- `Text.Lower`: only ASCII letters are lower-cased. This is exact for the renderer's comparisons with `title` and `table`: every non-ASCII character whose Python lower case is ASCII (U+0130 and the Kelvin sign U+212A) lowers either to two characters or to a letter that does not occur in those words.
- `_cleanup_old_presentations` of the generator runs only in its constructor; the model gives the sweep (`RootSweep`, `PrunedDecks`) but not when it runs.

=== FILE: colour.dfy ===
/** Colours as python-pptx's `RGBColor` holds them. */
module Colour {
  datatype Rgb = Rgb(red: int, green: int, blue: int)
}

=== FILE: context_manager.dfy ===
/** `ContextManager`: read access to the configuration dictionary loaded from
    `context.json`. The loaded dictionary is a parameter (`JNull` when it was
    never loaded); loading it from disk is not modelled. */
module ContextManager {
  import opened Wrappers
  import opened JsonValue
  import Text

  /** Following `keys` from `value` one dict step at a time. `None` when a key
      is missing (`KeyError`) or a step lands on something that is not a dict
      (`TypeError`: a list or string indexed by a string, a number, `None`). */
  function Resolve(value: Json, keys: seq<string>): (r: Option<Json>)
    ensures keys != [] && !value.JObj? ==> r == None
  {
    if keys == [] then Some(value)
    else if value.JObj? && keys[0] in value.fields then Resolve(value.fields[keys[0]], keys[1..])
    else None
  }

  /** Resolving a path in two parts resolves the first part and then the
      second from where the first one ended. */
  lemma {:induction false} ResolveConcat(value: Json, k1: seq<string>, k2: seq<string>)
    ensures Resolve(value, k1 + k2) == (if Resolve(value, k1).Some? then Resolve(Resolve(value, k1).value, k2) else None)
  {
    if k1 == [] {
      assert k1 + k2 == k2;
    } else {
      assert (k1 + k2)[0] == k1[0];
      assert (k1 + k2)[1..] == k1[1..] + k2;
      if value.JObj? && k1[0] in value.fields {
        ResolveConcat(value.fields[k1[0]], k1[1..], k2);
      }
    }
  }

  /** `get(key_path, default)`: split the path on `.` and descend; any
      failure yields `default`. */
  function Get(context: Json, keyPath: string, default: Json): (r: Json)
    ensures !context.JObj? ==> r == default
  {
    match Resolve(context, Text.Split(keyPath, '.'))
    case Some(v) => v
    case None => default
  }

  /** A found value is returned as it is, even `None` or another falsy value;
      the default is used only when the lookup fails. */
  lemma GetFoundOrDefault(context: Json, keyPath: string, default: Json)
    ensures Resolve(context, Text.Split(keyPath, '.')).Some? ==>
              Get(context, keyPath, default) == Resolve(context, Text.Split(keyPath, '.')).value
    ensures Resolve(context, Text.Split(keyPath, '.')).None? ==> Get(context, keyPath, default) == default
  {
  }

  /** A path without dots is a single key looked up in the context. */
  lemma GetSingleKey(context: Json, key: string, default: Json)
    requires '.' !in key
    ensures Get(context, key, default) == (if context.JObj? && key in context.fields then context.fields[key] else default)
  {
    Text.SplitNoSep(key, '.');
    assert [key][1..] == [];
    if context.JObj? && key in context.fields {
      assert Resolve(context, [key]) == Resolve(context.fields[key], []);
    } else {
      assert Resolve(context, [key]) == None;
    }
  }

  /** The empty path looks up the empty key. */
  lemma GetEmptyPath(context: Json, default: Json)
    ensures Get(context, "", default) == (if context.JObj? && "" in context.fields then context.fields[""] else default)
  {
    GetSingleKey(context, "", default);
  }

  /** Path composition: `get(p + "." + q)` looks up `q` inside the value
      found at `p`, and is the default when nothing is found at `p`. */
  lemma GetCompose(context: Json, p: string, q: string, default: Json)
    ensures Resolve(context, Text.Split(p, '.')).Some? ==>
              Get(context, p + "." + q, default) == Get(Resolve(context, Text.Split(p, '.')).value, q, default)
    ensures Resolve(context, Text.Split(p, '.')).None? ==> Get(context, p + "." + q, default) == default
  {
    Text.SplitConcat(p, q, '.');
    ResolveConcat(context, Text.Split(p, '.'), Text.Split(q, '.'));
  }

  /** `"a..b"` looks up `a`, then the empty key, then `b`. */
  lemma GetEmptyMiddleKey(context: Json, default: Json)
    ensures Get(context, "a..b", default) == (match Resolve(context, ["a", "", "b"]) case Some(v) => v case None => default)
  {
    assert "a..b" == "a" + "." + ("" + "." + "b");
    Text.SplitConcat("a", "" + "." + "b", '.');
    Text.SplitConcat("", "b", '.');
    Text.SplitNoSep("a", '.');
    Text.SplitNoSep("b", '.');
    Text.SplitNoSep("", '.');
    assert Text.Split("a..b", '.') == ["a"] + ([""] + ["b"]) == ["a", "", "b"];
  }

  /** `get_all`: the context, or `{}` when it is falsy (never loaded, or
      empty). */
  function GetAll(context: Json): (r: Json)
    ensures Truthy(r) || r == EmptyObj
    ensures context == JNull || context == EmptyObj ==> r == EmptyObj
    ensures !Truthy(context) ==> r == EmptyObj
    ensures Truthy(context) ==> r == context
  {
    if Truthy(context) then context else EmptyObj
  }

  /** Resolving a two-segment path written with a dot. */
  lemma GetTwoKeys(context: Json, a: string, b: string, default: Json)
    requires '.' !in a && '.' !in b
    ensures Get(context, a + "." + b, default) == (match Resolve(context, [a, b]) case Some(v) => v case None => default)
  {
    Text.SplitConcat(a, b, '.');
    Text.SplitNoSep(a, '.');
    Text.SplitNoSep(b, '.');
    assert Text.Split(a + "." + b, '.') == [a] + [b] == [a, b];
    assert [a, b][1..] == [b] && [b][1..] == [];
  }

  /** Resolving a dotted path below a dot-free first key. */
  lemma GetUnderKey(context: Json, key: string, rest: string, default: Json)
    requires '.' !in key
    ensures Get(context, key + "." + rest, default)
            == (match Resolve(context, [key] + Text.Split(rest, '.')) case Some(v) => v case None => default)
  {
    assert key + "." + rest == key + ['.'] + rest;
    Text.SplitConcat(key, rest, '.');
    Text.SplitNoSep(key, '.');
  }

  /** `get_presentation_defaults`. */
  function GetPresentationDefaults(context: Json): (r: Json)
    ensures r == (if context.JObj? && "presentation_defaults" in context.fields
                  then context.fields["presentation_defaults"] else EmptyObj)
  {
    GetSingleKey(context, "presentation_defaults", EmptyObj);
    Get(context, "presentation_defaults", EmptyObj)
  }

  /** `get_colors`: the `colors` entry of the presentation defaults. */
  function GetColors(context: Json): (r: Json)
    ensures r == (match Resolve(context, ["presentation_defaults", "colors"]) case Some(v) => v case None => EmptyObj)
  {
    GetTwoKeys(context, "presentation_defaults", "colors", EmptyObj);
    Get(context, "presentation_defaults" + "." + "colors", EmptyObj)
  }

  /** `get_fonts`: the `fonts` entry of the presentation defaults. */
  function GetFonts(context: Json): (r: Json)
    ensures r == (match Resolve(context, ["presentation_defaults", "fonts"]) case Some(v) => v case None => EmptyObj)
  {
    GetTwoKeys(context, "presentation_defaults", "fonts", EmptyObj);
    Get(context, "presentation_defaults" + "." + "fonts", EmptyObj)
  }

  /** The colours are the `colors` entry of what `get_presentation_defaults`
      returns, whenever the defaults were found and are a dict holding it. */
  lemma ColorsInsideDefaults(context: Json)
    requires context.JObj? && "presentation_defaults" in context.fields
    requires context.fields["presentation_defaults"].JObj?
    requires "colors" in context.fields["presentation_defaults"].fields
    ensures GetPresentationDefaults(context).JObj?
    ensures GetColors(context) == GetPresentationDefaults(context).fields["colors"]
  {
    var defaults := context.fields["presentation_defaults"];
    assert Resolve(context, ["presentation_defaults", "colors"]) == Resolve(defaults, ["colors"]);
    assert Resolve(defaults, ["colors"]) == Resolve(defaults.fields["colors"], []);
  }

  /** `get_slide_type_info(t)`: the `slide_types.<t>` entry, default `None`;
      a type name containing dots reaches deeper. */
  function GetSlideTypeInfo(context: Json, slideType: string): (r: Json)
    ensures r == (match Resolve(context, ["slide_types"] + Text.Split(slideType, '.')) case Some(v) => v case None => JNull)
  {
    GetUnderKey(context, "slide_types", slideType, JNull);
    Get(context, "slide_types" + "." + slideType, JNull)
  }

  /** A type name without dots is looked up directly under `slide_types`. */
  lemma SlideTypeInfoDotFree(context: Json, slideType: string)
    requires '.' !in slideType
    ensures GetSlideTypeInfo(context, slideType)
            == (match Resolve(context, ["slide_types", slideType]) case Some(v) => v case None => JNull)
  {
    Text.SplitNoSep(slideType, '.');
    assert ["slide_types"] + Text.Split(slideType, '.') == ["slide_types", slideType];
  }

  /** `get_llm_settings`. */
  function GetLlmSettings(context: Json): (r: Json)
    ensures r == (if context.JObj? && "llm_settings" in context.fields then context.fields["llm_settings"] else EmptyObj)
  {
    GetSingleKey(context, "llm_settings", EmptyObj);
    Get(context, "llm_settings", EmptyObj)
  }

  /** `get_file_paths`. */
  function GetFilePaths(context: Json): (r: Json)
    ensures r == (if context.JObj? && "file_paths" in context.fields then context.fields["file_paths"] else EmptyObj)
  {
    GetSingleKey(context, "file_paths", EmptyObj);
    Get(context, "file_paths", EmptyObj)
  }
}

=== FILE: controller.dfy ===
/** `PresentationController`: the decisions the three HTTP routes make about
    their request body, and the sweep of old PDF files. Flask, WeasyPrint
    and python-pptx are not modelled; each route's answer is an abstract
    response or document plan. */
module PresentationController {
  import opened Wrappers
  import opened JsonValue
  import Text
  import LlmService
  import opened Colour
  import opened Files

  /** What `request.get_json()` hands over, or `Unreadable` when that call
      raises (a body that is not JSON, a wrong content type). */
  datatype Body = Parsed(data: Json) | Unreadable

  /** A JSON response with its HTTP status. */
  datatype Response = Response(status: int, body: Json)

  /** What the caller of `generate_presentation_content(topic)` observes:
      a returned value (possibly `None`) or one of the exceptions the route
      tells apart. */
  datatype LlmOutcome =
    | Returned(value: Option<Json>)
    | RaisedValueError(message: string)
    | RaisedConnectionError(message: string)
    | RaisedOther

  const NoDataMessage: string := "No data provided"
  const NoTopicMessage: string := "Please provide a presentation topic"
  const GenerationFailedMessage: string :=
    "An unexpected error occurred while generating the presentation. Please try again with a different topic."
  const RequestFailedMessage: string := "An error occurred while processing your request. Please try again."

  /** `{'error': message}` with the given status. */
  function ErrorResponse(status: int, message: string): (r: Response)
    ensures r.status == status && r.body.JObj? && r.body.fields.Keys == {"error"}
    ensures r.body.fields["error"] == JStr(message)
  {
    Response(status, Singleton("error", JStr(message)))
  }

  /** The four-colour theme the preview route inserts when the content has
      none. */
  const PreviewTheme: Json := JObj(
    map["primary_color" := JStr("#0072C6"), "secondary_color" := JStr("#404040"),
        "accent_color" := JStr("#00B294"), "background_color" := JStr("#FFFFFF")],
    ["primary_color", "secondary_color", "accent_color", "background_color"])

  /** Reading the topic: `data.get('topic')` needs a dict, and `.strip()`
      needs a string once the topic is truthy. */
  datatype TopicCheck = TopicOk(topic: string) | TopicMissing | TopicCrash

  function CheckTopic(data: Json): (r: TopicCheck)
    ensures r.TopicOk? ==> data.JObj? && "topic" in data.fields && data.fields["topic"] == JStr(r.topic)
    ensures r.TopicOk? ==> Text.Strip(r.topic) != []
    ensures r.TopicCrash? <==>
              !data.JObj? || ("topic" in data.fields && Truthy(data.fields["topic"]) && !data.fields["topic"].JStr?)
  {
    if !data.JObj? then TopicCrash
    else
      var topic := Get(data.fields, "topic", JNull);
      if !Truthy(topic) then TopicMissing
      else if !topic.JStr? then TopicCrash
      else if Text.Strip(topic.s) == [] then TopicMissing
      else TopicOk(topic.s)
  }

  /** The theme step after the language model answered:
      `if 'theme' not in content: content['theme'] = ...`. `None` when that
      raises `TypeError`: `in` on a value that is not a container, or item
      assignment on a list or string that lacks `"theme"`. */
  function WithDefaultTheme(content: Json): (r: Option<Json>)
    ensures r.Some? <==> content.JObj? || In("theme", content) == Some(true)
    ensures r.Some? ==> In("theme", r.value) == Some(true)
    ensures In("theme", content) == Some(true) ==> r == Some(content)
    ensures content.JObj? && "theme" !in content.fields ==>
              && r.Some? && r.value.JObj?
              && r.value.fields.Keys == content.fields.Keys + {"theme"}
              && r.value.fields["theme"] == PreviewTheme
              && (forall k :: k in content.fields ==> r.value.fields[k] == content.fields[k])
              && r.value.order == content.order + ["theme"]
  {
    match content
    case JObj(fields, order) =>
      if "theme" in fields then Some(content)
      else Some(JObj(fields["theme" := PreviewTheme], order + ["theme"]))
    case JArr(xs) => if JStr("theme") in xs then Some(content) else None
    case JStr(s) => if Text.Contains(s, "theme") then Some(content) else None
    case _ => None
  }

  /** Adding the default theme twice is the same as adding it once. */
  lemma DefaultThemeIdempotent(content: Json)
    requires WithDefaultTheme(content).Some?
    ensures WithDefaultTheme(WithDefaultTheme(content).value) == WithDefaultTheme(content)
  {
  }

  /** The response once the language-model step has an outcome: exceptions
      map to 400, 503 and 500, and a `None` result fails the `in` test with
      `TypeError`, which also gives 500. */
  function AfterLlm(outcome: LlmOutcome): (r: Response)
    ensures r.status == 200 <==>
              outcome.Returned? && outcome.value.Some? && WithDefaultTheme(outcome.value.value).Some?
    ensures r.status == 200 ==>
              r.body == Singleton("presentation", WithDefaultTheme(outcome.value.value).value)
    ensures outcome.RaisedValueError? ==> r == ErrorResponse(400, outcome.message)
    ensures outcome.RaisedConnectionError? ==> r == ErrorResponse(503, outcome.message)
    ensures outcome.RaisedOther? || outcome == Returned(None) ==> r == ErrorResponse(500, GenerationFailedMessage)
  {
    match outcome
    case RaisedValueError(m) => ErrorResponse(400, m)
    case RaisedConnectionError(m) => ErrorResponse(503, m)
    case RaisedOther => ErrorResponse(500, GenerationFailedMessage)
    case Returned(None) => ErrorResponse(500, GenerationFailedMessage)
    case Returned(Some(content)) =>
      match WithDefaultTheme(content)
      case Some(themed) => Response(200, Singleton("presentation", themed))
      case None => ErrorResponse(500, GenerationFailedMessage)
  }

  /** `generate_preview`. `llm` stands for the language-model step; it is
      called with the topic exactly as the request gave it (not stripped),
      and only when the request passed validation. */
  function GeneratePreview(body: Body, llm: string -> LlmOutcome): (r: Response)
    ensures r.status in {200, 400, 500, 503}
    ensures body.Unreadable? ==> r == ErrorResponse(500, RequestFailedMessage)
    ensures body.Parsed? && !Truthy(body.data) ==> r == ErrorResponse(400, NoDataMessage)
    ensures body.Parsed? && Truthy(body.data) && CheckTopic(body.data).TopicCrash? ==>
              r == ErrorResponse(500, RequestFailedMessage)
    ensures r.status == 200 ==> body.Parsed? && CheckTopic(body.data).TopicOk?
  {
    match body
    case Unreadable => ErrorResponse(500, RequestFailedMessage)
    case Parsed(data) =>
      if !Truthy(data) then ErrorResponse(400, NoDataMessage)
      else
        match CheckTopic(data)
        case TopicCrash => ErrorResponse(500, RequestFailedMessage)
        case TopicMissing => ErrorResponse(400, NoTopicMessage)
        case TopicOk(topic) => AfterLlm(llm(topic))
  }

  /** A missing, falsy, empty or whitespace-only topic in a non-empty dict
      gives 400 without consulting the language model. */
  lemma TopicRequired(data: Json, llm: string -> LlmOutcome)
    requires data.JObj? && Truthy(data)
    requires || "topic" !in data.fields
             || !Truthy(data.fields["topic"])
             || (data.fields["topic"].JStr? && forall i :: 0 <= i < |data.fields["topic"].s| ==> Text.IsSpace(data.fields["topic"].s[i]))
    ensures GeneratePreview(Parsed(data), llm) == ErrorResponse(400, NoTopicMessage)
  {
  }

  /** A truthy body that is not a dict, or whose truthy topic is not a
      string, makes reading the topic raise; the outer handler answers 500
      without consulting the language model. */
  lemma UnreadableTopicFails(llm: string -> LlmOutcome)
    ensures GeneratePreview(Parsed(JArr([JNum(1.0)])), llm) == ErrorResponse(500, RequestFailedMessage)
    ensures GeneratePreview(Parsed(JStr("x")), llm) == ErrorResponse(500, RequestFailedMessage)
    ensures GeneratePreview(Parsed(Singleton("topic", JNum(5.0))), llm) == ErrorResponse(500, RequestFailedMessage)
  {
  }

  /** A valid request hands its topic, unstripped, to the language model,
      and the response is decided by the model's outcome alone. */
  lemma ValidRequestDefersToLlm(data: Json, llm: string -> LlmOutcome)
    requires WellFormedObj(data) && "topic" in data.fields && data.fields["topic"].JStr?
    requires Text.Strip(data.fields["topic"].s) != []
    ensures GeneratePreview(Parsed(data), llm) == AfterLlm(llm(data.fields["topic"].s))
  {
    NonEmptyObjTruthy(data, "topic");
  }

  /** A successful preview carries the model's content; a theme it already
      had, even a partial one, is left untouched, and a missing one is the
      four-colour default. */
  lemma PreviewKeepsExistingTheme(body: Body, llm: string -> LlmOutcome)
    requires GeneratePreview(body, llm).status == 200
    ensures var content := llm(CheckTopic(body.data).topic).value.value;
            var presented := GeneratePreview(body, llm).body.fields["presentation"];
            && (content.JObj? && "theme" in content.fields ==> presented == content)
            && (content.JObj? && "theme" !in content.fields ==> presented.fields["theme"] == PreviewTheme)
  {
  }

  /** Wired to the real service, which catches everything and returns
      `None` on failure, the route never answers 503, and a 400 comes only
      from request validation. */
  lemma RealServiceNever503(body: Body, parse: string -> Option<Json>, chat: string -> LlmService.ChatReply)
    ensures var r := GeneratePreview(body, t => Returned(LlmService.GenerateContent(parse, chat(t))));
            && r.status != 503
            && (r.status == 400 ==> r == ErrorResponse(400, NoDataMessage) || r == ErrorResponse(400, NoTopicMessage))
  {
  }

  /** The answer of an export route: a client error, a server error, or the
      document to render. */
  datatype Export<T> = BadRequest | ServerError | Document(doc: T)

  function ExportStatus<T>(e: Export<T>): (status: int)
    ensures status == 400 <==> e.BadRequest?
    ensures status == 500 <==> e.ServerError?
    ensures status == 200 <==> e.Document?
  {
    match e
    case BadRequest => 400
    case ServerError => 500
    case Document(_) => 200
  }

  /** The gate both export routes share:
      `if not data or 'presentation' not in data` gives 400, and then
      `data['presentation']` needs a dict. `in` on a number or boolean and
      string indexing of a list or string raise, which gives 500. */
  function PresentationOf(body: Body): (r: Export<Json>)
    ensures r.BadRequest? <==>
              body.Parsed? && (!Truthy(body.data) || In("presentation", body.data) == Some(false))
    ensures r.Document? <==>
              body.Parsed? && Truthy(body.data) && body.data.JObj? && "presentation" in body.data.fields
    ensures r.Document? ==> r.doc == body.data.fields["presentation"]
  {
    match body
    case Unreadable => ServerError
    case Parsed(data) =>
      if !Truthy(data) then BadRequest
      else
        match In("presentation", data)
        case None => ServerError
        case Some(false) => BadRequest
        case Some(true) => if data.JObj? then Document(data.fields["presentation"]) else ServerError
  }

  /** `export_pdf`: the presentation handed to the print template. The HTML
      rendering and the PDF conversion are not modelled. */
  function ExportPdf(body: Body): (r: Export<Json>)
    ensures r.BadRequest? <==> PresentationOf(body).BadRequest?
    ensures r.Document? <==>
              body.Parsed? && Truthy(body.data) && body.data.JObj? && "presentation" in body.data.fields
    ensures r.Document? ==> r.doc == body.data.fields["presentation"]
  {
    PresentationOf(body)
  }

  /** The four theme colours of an exported deck; text is always black. */
  datatype ExportColours = ExportColours(primary: Rgb, secondary: Rgb, accent: Rgb, background: Rgb)

  const TextColour: Rgb := Rgb(0, 0, 0)

  /** `theme.get(key, default).lstrip('#')`: the colour's hex text with every
      leading `#` removed; `None` when the value is not a string. */
  function ColourText(theme: map<string, Json>, key: string, default: string): (r: Option<string>)
    ensures r.Some? <==> key !in theme || theme[key].JStr?
    ensures key !in theme ==> r == Some(Text.LStrip(default, '#'))
    ensures key in theme && theme[key].JStr? ==> r == Some(Text.LStrip(theme[key].s, '#'))
    ensures r.Some? && r.value != [] ==> r.value[0] != '#'
  {
    var v := Get(theme, key, JStr(default));
    if v.JStr? then Some(Text.LStrip(v.s, '#')) else None
  }

  /** One colour of the export: its text converted by `fromString`, which
      stands for `RGBColor.from_string` and rejects text that is not a hex
      triple. `None` when either step raises. */
  function ExportColour(theme: map<string, Json>, key: string, default: string,
                        fromString: string -> Option<Rgb>): (r: Option<Rgb>)
    ensures r.Some? <==> ColourText(theme, key, default).Some? && fromString(ColourText(theme, key, default).value).Some?
    ensures r.Some? ==> Some(r.value) == fromString(ColourText(theme, key, default).value)
  {
    var text := ColourText(theme, key, default);
    if text.None? then None else fromString(text.value)
  }

  /** The four colours of the export, each defaulting on its own. */
  function ColoursOf(theme: Json, fromString: string -> Option<Rgb>): (r: Option<ExportColours>)
    ensures r.Some? <==>
              && theme.JObj?
              && ExportColour(theme.fields, "primary_color", "#0072C6", fromString).Some?
              && ExportColour(theme.fields, "secondary_color", "#404040", fromString).Some?
              && ExportColour(theme.fields, "accent_color", "#00B294", fromString).Some?
              && ExportColour(theme.fields, "background_color", "#FFFFFF", fromString).Some?
    ensures r.Some? ==>
              && Some(r.value.primary) == ExportColour(theme.fields, "primary_color", "#0072C6", fromString)
              && Some(r.value.secondary) == ExportColour(theme.fields, "secondary_color", "#404040", fromString)
              && Some(r.value.accent) == ExportColour(theme.fields, "accent_color", "#00B294", fromString)
              && Some(r.value.background) == ExportColour(theme.fields, "background_color", "#FFFFFF", fromString)
  {
    if !theme.JObj? then None
    else
      var p := ExportColour(theme.fields, "primary_color", "#0072C6", fromString);
      var s := ExportColour(theme.fields, "secondary_color", "#404040", fromString);
      var a := ExportColour(theme.fields, "accent_color", "#00B294", fromString);
      var b := ExportColour(theme.fields, "background_color", "#FFFFFF", fromString);
      if p.None? || s.None? || a.None? || b.None? then None
      else Some(ExportColours(p.value, s.value, a.value, b.value))
  }

  /** With an empty theme every colour is its default, without the `#`. */
  lemma EmptyThemeDefaults()
    ensures ColourText(map[], "primary_color", "#0072C6") == Some("0072C6")
    ensures ColourText(map[], "secondary_color", "#404040") == Some("404040")
    ensures ColourText(map[], "accent_color", "#00B294") == Some("00B294")
    ensures ColourText(map[], "background_color", "#FFFFFF") == Some("FFFFFF")
  {
    StripOneHash("#0072C6");
    StripOneHash("#404040");
    StripOneHash("#00B294");
    StripOneHash("#FFFFFF");
  }

  /** A single leading `#` followed by something else is all `lstrip`
      removes. */
  lemma StripOneHash(s: string)
    requires |s| >= 2 && s[0] == '#' && s[1] != '#'
    ensures Text.LStrip(s, '#') == s[1..]
  {
    assert Text.LStrip(s[1..], '#') == s[1..];
  }

  /** One cell of an exported table. */
  datatype Cell = Cell(row: nat, col: nat, value: Json)

  /** What an exported slide shows under its title. */
  datatype SlideBody =
    | Grid(rows: nat, cols: nat, cells: seq<Cell>)
    | TextBox(points: seq<Json>)
    | NoBody

  datatype ExportSlide = ExportSlide(title: string, body: SlideBody)

  datatype ExportDeck = ExportDeck(colours: ExportColours, slides: seq<ExportSlide>)

  /** The cells of one table row, in column order. */
  function RowCells(values: seq<Json>, row: nat): (r: seq<Cell>)
    ensures |r| == |values|
    ensures forall k :: 0 <= k < |r| ==> r[k] == Cell(row, k, values[k])
  {
    seq(|values|, k requires 0 <= k < |values| => Cell(row, k, values[k]))
  }

  /** The cells written for `rows`, the first of them at index `first`. A
      row that cannot be iterated, or that has more cells than the table has
      columns (`table.cell` raises `IndexError`), makes it `None`. */
  function GridCells(rows: seq<Json>, cols: nat, first: nat): (r: Option<seq<Cell>>)
    ensures r.Some? <==>
              forall k :: 0 <= k < |rows| ==> Iterate(rows[k]).Some? && |Iterate(rows[k]).value| <= cols
    ensures r.Some? ==> forall c :: c in r.value ==>
              && first <= c.row < first + |rows|
              && c.col < |Iterate(rows[c.row - first]).value| <= cols
              && c.value == Iterate(rows[c.row - first]).value[c.col]
    decreases |rows|
  {
    if rows == [] then Some([])
    else
      match Iterate(rows[0])
      case None => None
      case Some(values) =>
        if |values| > cols then None
        else
          var rest := GridCells(rows[1..], cols, first + 1);
          assert forall k :: 1 <= k < |rows| ==> rows[k] == rows[1..][k - 1];
          if rest.None? then None
          else Some(RowCells(values, first) + rest.value)
  }

  /** The table of an exported `table` slide: `len(content)` rows and
      `len(content[0])` columns, or two columns when there are no rows.
      `add_table` divides the table's height by the row count and its width
      by the column count, so a table without rows or without columns
      raises `ZeroDivisionError`. `None` when that happens, when `len` or
      indexing raises, or when a row does not fit. */
  function TableBody(content: Json): (r: Option<SlideBody>)
    ensures r.Some? ==> r.value.Grid? && Len(content).Some? && r.value.rows == Len(content).value
    ensures r.Some? ==> r.value.rows > 0 && r.value.cols > 0
    ensures Len(content) == Some(0) ==> r.None?
    ensures r.Some? ==> First(content).Some? && Len(First(content).value) == Some(r.value.cols)
    ensures r.Some? ==> GridCells(Iterate(content).value, r.value.cols, 0) == Some(r.value.cells)
    ensures Len(content).Some? && Len(content).value > 0 && First(content).Some?
            && Len(First(content).value).Some? && Len(First(content).value).value > 0
            && GridCells(Iterate(content).value, Len(First(content).value).value, 0).Some?
            ==> r.Some?
  {
    match Len(content)
    case None => None
    case Some(n) =>
      var cols: Option<nat> :=
        if n == 0 then Some(2)
        else match First(content) case None => None case Some(head) => Len(head);
      if cols.None? then None
      else if n == 0 || cols.value == 0 then None
      else
        match GridCells(Iterate(content).value, cols.value, 0)
        case None => None
        case Some(cells) => Some(Grid(n, cols.value, cells))
  }

  /** Content whose first row is empty has no columns, and the export
      fails, whatever the other rows hold. */
  lemma EmptyFirstRowFails(rows: seq<Json>)
    requires |rows| > 0 && rows[0] == JArr([])
    ensures TableBody(JArr(rows)).None?
  {
    assert First(JArr(rows)) == Some(JArr([]));
  }

  /** A content list whose rows are all lists as long as the first one,
      and not empty, exports as a grid of that size. */
  lemma RectangularTableExports(rows: seq<Json>, width: nat)
    requires |rows| > 0 && width > 0
    requires forall k :: 0 <= k < |rows| ==> rows[k].JArr? && |rows[k].items| == width
    ensures TableBody(JArr(rows)).Some?
    ensures TableBody(JArr(rows)).value.rows == |rows| && TableBody(JArr(rows)).value.cols == width
  {
    assert Len(First(JArr(rows)).value) == Some(width);
  }

  /** One slide of `export_pptx`: a dict with a string `title` and some
      `type`; an exact `"table"` type draws a table from `content`, any other
      type draws the points of a list `content` (and nothing for non-lists). */
  function ExportSlideOf(item: Json): (r: Option<ExportSlide>)
    ensures r.Some? ==> item.JObj? && "title" in item.fields && item.fields["title"] == JStr(r.value.title)
                        && "type" in item.fields
    ensures r.Some? ==> (r.value.body.Grid? <==> item.fields["type"] == JStr("table"))
    ensures r.Some? && item.fields["type"] != JStr("table") ==>
              (r.value.body.TextBox? <==> Get(item.fields, "content", EmptyArr).JArr?)
    ensures r.Some? && r.value.body.TextBox? ==> r.value.body.points == Get(item.fields, "content", EmptyArr).items
    ensures r.Some? && r.value.body.Grid? ==>
              "content" in item.fields && Some(r.value.body) == TableBody(item.fields["content"])
    ensures r.Some? <==>
              && item.JObj? && "title" in item.fields && item.fields["title"].JStr? && "type" in item.fields
              && (item.fields["type"] == JStr("table") ==>
                    "content" in item.fields && TableBody(item.fields["content"]).Some?)
  {
    if !item.JObj? || "title" !in item.fields || !item.fields["title"].JStr? || "type" !in item.fields then None
    else
      var title := item.fields["title"].s;
      if item.fields["type"] == JStr("table") then
        if "content" !in item.fields then None
        else
          match TableBody(item.fields["content"])
          case None => None
          case Some(grid) => Some(ExportSlide(title, grid))
      else
        var content := Get(item.fields, "content", EmptyArr);
        Some(ExportSlide(title, if content.JArr? then TextBox(content.items) else NoBody))
  }

  /** All slides of the export, in order; `None` as soon as one fails. */
  function ExportSlides(items: seq<Json>): (r: Option<seq<ExportSlide>>)
    ensures r.Some? <==> forall k :: 0 <= k < |items| ==> ExportSlideOf(items[k]).Some?
    ensures r.Some? ==> |r.value| == |items| && forall k :: 0 <= k < |items| ==> r.value[k] == ExportSlideOf(items[k]).value
  {
    if items == [] then Some([])
    else
      var head := ExportSlideOf(items[0]);
      var rest := ExportSlides(items[1..]);
      assert forall k :: 1 <= k < |items| ==> items[k] == items[1..][k - 1];
      if head.None? || rest.None? then None
      else Some([head.value] + rest.value)
  }

  /** `export_pptx`: the deck for a presentation dict whose theme (default
      `{}`) is a dict and whose `slides` can be iterated. */
  function ExportPptx(body: Body, fromString: string -> Option<Rgb>): (r: Export<ExportDeck>)
    ensures r.BadRequest? <==> PresentationOf(body).BadRequest?
    ensures r.Document? ==>
              && PresentationOf(body).Document?
              && var p := PresentationOf(body).doc;
              && p.JObj? && "slides" in p.fields
              && Some(r.doc.colours) == ColoursOf(Get(p.fields, "theme", EmptyObj), fromString)
              && Len(p.fields["slides"]) == Some(|r.doc.slides|)
              && Some(r.doc.slides) == ExportSlides(Iterate(p.fields["slides"]).value)
    ensures r.Document? <==>
              && PresentationOf(body).Document?
              && var p := PresentationOf(body).doc;
              && p.JObj?
              && ColoursOf(Get(p.fields, "theme", EmptyObj), fromString).Some?
              && "slides" in p.fields && Iterate(p.fields["slides"]).Some?
              && ExportSlides(Iterate(p.fields["slides"]).value).Some?
  {
    match PresentationOf(body)
    case BadRequest => BadRequest
    case ServerError => ServerError
    case Document(p) =>
      if !p.JObj? then ServerError
      else
        match ColoursOf(Get(p.fields, "theme", EmptyObj), fromString)
        case None => ServerError
        case Some(colours) =>
          if "slides" !in p.fields then ServerError
          else
            match Iterate(p.fields["slides"])
            case None => ServerError
            case Some(items) =>
              match ExportSlides(items)
              case None => ServerError
              case Some(slides) => Document(ExportDeck(colours, slides))
  }

  /** Both export routes turn away the same requests with 400. */
  lemma ExportRoutesShareGate(body: Body, fromString: string -> Option<Rgb>)
    ensures ExportStatus(ExportPdf(body)) == 400 <==> ExportStatus(ExportPptx(body, fromString)) == 400
    ensures body.Parsed? && !Truthy(body.data) ==> ExportPdf(body).BadRequest? && ExportPptx(body, fromString).BadRequest?
    ensures body.Parsed? && body.data.JObj? && Truthy(body.data) && "presentation" !in body.data.fields ==>
              ExportPdf(body).BadRequest? && ExportPptx(body, fromString).BadRequest?
  {
  }

  /** One hour in microseconds: creation times are read through
      `datetime.fromtimestamp`, which keeps microseconds. */
  const OneHour: int := 3_600_000_000

  /** The names `glob('*.pdf')` matches: ending in `.pdf`, not hidden. */
  predicate IsPdfName(name: string)
  {
    |name| >= 4 && name[|name| - 4..] == ".pdf" && name[0] != '.'
  }

  /** A PDF is old once more than one hour has passed, strictly. */
  predicate Expired(now: int, ctime: int)
  {
    now - ctime > OneHour
  }

  /** `cleanup_old_presentations`: the files it removes, in directory order. */
  function PdfSweep(files: seq<FileEntry>, now: int): (removed: seq<FileEntry>)
    ensures forall f :: f in removed <==> f in files && IsPdfName(f.name) && Expired(now, f.ctime)
    ensures |removed| <= |files|
  {
    if files == [] then []
    else
      var rest := PdfSweep(files[1..], now);
      if IsPdfName(files[0].name) && Expired(now, files[0].ctime) then [files[0]] + rest else rest
  }

  /** A PDF exactly one hour old stays; one microsecond more and it goes. */
  lemma SweepBoundary(name: string, now: int)
    requires IsPdfName(name)
    ensures PdfSweep([FileEntry(name, now - OneHour)], now) == []
    ensures PdfSweep([FileEntry(name, now - OneHour - 1)], now) == [FileEntry(name, now - OneHour - 1)]
  {
  }
}

=== FILE: deck_files.dfy ===
/** The files the presentation generator writes and prunes: the
    `presentation_YYYYMMDD_HHMMSS.pptx` name of a saved deck, and the
    clean-up that keeps the 20 newest decks. */
module DeckFiles {
  import opened Wrappers
  import opened Files

  /** A local date and time as `datetime.now()` gives it. */
  datatype DateTime = DateTime(year: nat, month: nat, day: nat, hour: nat, minute: nat, second: nat)

  /** The range in which `%Y` prints exactly four digits, and the field
      ranges `datetime` enforces. */
  predicate ValidDateTime(t: DateTime)
  {
    && 1000 <= t.year <= 9999
    && 1 <= t.month <= 12
    && 1 <= t.day <= 31
    && 0 <= t.hour < 24
    && 0 <= t.minute < 60
    && 0 <= t.second < 60
  }

  predicate IsDigit(c: char)
  {
    '0' <= c <= '9'
  }

  function DigitChar(d: nat): (c: char)
    requires d < 10
    ensures IsDigit(c)
  {
    ('0' as int + d) as char
  }

  /** The last `width` decimal digits of `n`, zero-padded. */
  function Digits(n: nat, width: nat): (s: string)
    ensures |s| == width
    ensures forall i :: 0 <= i < |s| ==> IsDigit(s[i])
  {
    if width == 0 then [] else Digits(n / 10, width - 1) + [DigitChar(n % 10)]
  }

  function Pow10(k: nat): (p: nat)
    ensures p >= 1
  {
    if k == 0 then 1 else 10 * Pow10(k - 1)
  }

  /** The number a string of decimal digits spells. */
  function DigitsValue(s: string): (n: nat)
    requires forall i :: 0 <= i < |s| ==> IsDigit(s[i])
  {
    if s == [] then 0
    else
      assert IsDigit(s[|s| - 1]);
      10 * DigitsValue(s[..|s| - 1]) + (s[|s| - 1] as int - '0' as int)
  }

  /** Reading the zero-padded digits back gives the number, when it fits. */
  lemma {:induction false} DigitsRoundTrip(n: nat, width: nat)
    requires n < Pow10(width)
    ensures DigitsValue(Digits(n, width)) == n
  {
    if width > 0 {
      DigitsRoundTrip(n / 10, width - 1);
      var s := Digits(n, width);
      assert s[..|s| - 1] == Digits(n / 10, width - 1);
    }
  }

  /** `%Y%m%d`. */
  function DatePart(t: DateTime): (s: string)
    ensures |s| == 8
  {
    Digits(t.year, 4) + Digits(t.month, 2) + Digits(t.day, 2)
  }

  /** `%H%M%S`. */
  function TimePart(t: DateTime): (s: string)
    ensures |s| == 6
  {
    Digits(t.hour, 2) + Digits(t.minute, 2) + Digits(t.second, 2)
  }

  /** `strftime("%Y%m%d_%H%M%S")`. */
  function Timestamp(t: DateTime): (s: string)
    ensures |s| == 15 && s[8] == '_'
  {
    DatePart(t) + "_" + TimePart(t)
  }

  const DeckPrefix: string := "presentation_"
  const DeckSuffix: string := ".pptx"

  /** The name a saved deck gets. */
  function DeckFileName(t: DateTime): (name: string)
    ensures |name| == 33
    ensures name[..13] == DeckPrefix && name[28..] == DeckSuffix
  {
    DeckPrefix + Timestamp(t) + DeckSuffix
  }

  /** The names `glob("presentation_*.pptx")` matches. */
  predicate IsDeckName(name: string)
  {
    |name| >= |DeckPrefix| + |DeckSuffix|
    && name[..|DeckPrefix|] == DeckPrefix
    && name[|name| - |DeckSuffix|..] == DeckSuffix
  }

  /** Every saved deck falls under the clean-up's pattern. */
  lemma SavedDecksArePruned(t: DateTime)
    ensures IsDeckName(DeckFileName(t))
  {
  }

  predicate AllDigits(s: string)
  {
    forall i :: 0 <= i < |s| ==> IsDigit(s[i])
  }

  /** The numbers three fixed-width digit groups spell. */
  function ParseGroups(s: string, w1: nat, w2: nat): (r: (nat, nat, nat))
    requires w1 + w2 <= |s| && AllDigits(s)
  {
    (DigitsValue(s[..w1]), DigitsValue(s[w1..w1 + w2]), DigitsValue(s[w1 + w2..]))
  }

  /** Reading back three zero-padded groups. */
  lemma ParseGroupsRoundTrip(a: nat, wa: nat, b: nat, wb: nat, c: nat, wc: nat)
    requires a < Pow10(wa) && b < Pow10(wb) && c < Pow10(wc)
    ensures AllDigits(Digits(a, wa) + Digits(b, wb) + Digits(c, wc))
    ensures ParseGroups(Digits(a, wa) + Digits(b, wb) + Digits(c, wc), wa, wb) == (a, b, c)
  {
    var s := Digits(a, wa) + Digits(b, wb) + Digits(c, wc);
    assert s[..wa] == Digits(a, wa);
    assert s[wa..wa + wb] == Digits(b, wb);
    assert s[wa + wb..] == Digits(c, wc);
    DigitsRoundTrip(a, wa);
    DigitsRoundTrip(b, wb);
    DigitsRoundTrip(c, wc);
  }

  /** The date and time a timestamp records. */
  function ParseTimestamp(ts: string): (r: Option<DateTime>)
  {
    if |ts| == 15 && ts[8] == '_' && AllDigits(ts[..8]) && AllDigits(ts[9..]) then
      var (y, mo, d) := ParseGroups(ts[..8], 4, 2);
      var (h, mi, s) := ParseGroups(ts[9..], 2, 2);
      Some(DateTime(y, mo, d, h, mi, s))
    else None
  }

  /** The date and time a deck's name records, for names of the saved
      shape. */
  function ParseDeckFileName(name: string): (r: Option<DateTime>)
    ensures r.Some? ==> IsDeckName(name) && |name| == 33
  {
    if |name| == 33 && name[..13] == DeckPrefix && name[28..] == DeckSuffix then ParseTimestamp(name[13..28])
    else None
  }

  lemma TimestampRoundTrip(t: DateTime)
    requires ValidDateTime(t)
    ensures ParseTimestamp(Timestamp(t)) == Some(t)
  {
    var ts := Timestamp(t);
    assert ts[..8] == DatePart(t);
    assert ts[9..] == TimePart(t);
    assert Pow10(4) == 10000 && Pow10(2) == 100;
    ParseGroupsRoundTrip(t.year, 4, t.month, 2, t.day, 2);
    ParseGroupsRoundTrip(t.hour, 2, t.minute, 2, t.second, 2);
  }

  /** The saved name records the time it was taken at: parsing it gives
      that time back. */
  lemma DeckFileNameRoundTrip(t: DateTime)
    requires ValidDateTime(t)
    ensures ParseDeckFileName(DeckFileName(t)) == Some(t)
  {
    var name := DeckFileName(t);
    assert name[13..28] == Timestamp(t);
    TimestampRoundTrip(t);
  }

  /** Distinct valid times give distinct names. */
  lemma DeckFileNameInjective(t: DateTime, u: DateTime)
    requires ValidDateTime(t) && ValidDateTime(u) && t != u
    ensures DeckFileName(t) != DeckFileName(u)
  {
    DeckFileNameRoundTrip(t);
    DeckFileNameRoundTrip(u);
  }

  /** Files in creation-time order, oldest first. */
  predicate SortedByCtime(s: seq<FileEntry>)
  {
    forall i, j :: 0 <= i < j < |s| ==> s[i].ctime <= s[j].ctime
  }

  /** `f` placed before the first entry of `s` that is not older. */
  function Insert(f: FileEntry, s: seq<FileEntry>): (r: seq<FileEntry>)
    requires SortedByCtime(s)
    ensures SortedByCtime(r)
    ensures multiset(r) == multiset(s) + multiset{f}
    ensures |r| == |s| + 1
    ensures r[0] == f || (s != [] && r[0] == s[0])
  {
    if s == [] then [f]
    else if f.ctime <= s[0].ctime then
      SortedCons(f, s);
      [f] + s
    else
      var rest := Insert(f, s[1..]);
      InsertStep(f, s, rest);
      [s[0]] + rest
  }

  /** The step of `Insert` that passes over the head of `s`. */
  lemma InsertStep(f: FileEntry, s: seq<FileEntry>, rest: seq<FileEntry>)
    requires s != [] && SortedByCtime(s) && f.ctime > s[0].ctime
    requires SortedByCtime(rest) && multiset(rest) == multiset(s[1..]) + multiset{f}
    requires rest != [] && (rest[0] == f || (s[1..] != [] && rest[0] == s[1..][0]))
    ensures SortedByCtime([s[0]] + rest)
    ensures multiset([s[0]] + rest) == multiset(s) + multiset{f}
  {
    assert s == [s[0]] + s[1..];
    assert multiset(s) == multiset{s[0]} + multiset(s[1..]);
    assert multiset([s[0]] + rest) == multiset{s[0]} + multiset(rest);
    if rest[0] != f {
      assert s[0].ctime <= s[1].ctime;
    }
    SortedCons(s[0], rest);
  }

  /** An entry no newer than the head of a sorted list can go in front. */
  lemma SortedCons(x: FileEntry, t: seq<FileEntry>)
    requires SortedByCtime(t)
    requires t != [] ==> x.ctime <= t[0].ctime
    ensures SortedByCtime([x] + t)
  {
    forall i, j | 0 <= i < j < |[x] + t|
      ensures ([x] + t)[i].ctime <= ([x] + t)[j].ctime
    {
      if i == 0 && j > 1 {
        assert t[0].ctime <= t[j - 1].ctime;
      }
    }
  }

  /** `files.sort(key=os.path.getctime)`: a stable sort, so files created at
      the same time keep their directory order. */
  function SortByCtime(s: seq<FileEntry>): (r: seq<FileEntry>)
    ensures SortedByCtime(r)
    ensures multiset(r) == multiset(s)
    ensures |r| == |s|
  {
    if s == [] then []
    else
      assert s == [s[0]] + s[1..];
      Insert(s[0], SortByCtime(s[1..]))
  }

  /** The entries `glob` matches, in directory order. */
  function MatchingDecks(files: seq<FileEntry>): (r: seq<FileEntry>)
    ensures forall f :: f in r <==> f in files && IsDeckName(f.name)
    ensures |r| <= |files|
  {
    if files == [] then []
    else (if IsDeckName(files[0].name) then [files[0]] else []) + MatchingDecks(files[1..])
  }

  /** The root-directory sweep: every name matching the pattern goes. */
  function RootSweep(names: seq<string>): (removed: seq<string>)
    ensures forall n :: n in removed <==> n in names && IsDeckName(n)
  {
    if names == [] then []
    else (if IsDeckName(names[0]) then [names[0]] else []) + RootSweep(names[1..])
  }

  const KeepNewest: nat := 20

  /** The presentations-directory sweep: nothing when at most 20 decks
      match, otherwise all but the 20 newest. */
  function PrunedDecks(files: seq<FileEntry>): (removed: seq<FileEntry>)
  {
    var decks := MatchingDecks(files);
    if |decks| > KeepNewest then SortByCtime(decks)[..|decks| - KeepNewest] else []
  }

  /** The decks the sweep leaves. */
  function KeptDecks(files: seq<FileEntry>): (kept: seq<FileEntry>)
  {
    var decks := MatchingDecks(files);
    if |decks| > KeepNewest then SortByCtime(decks)[|decks| - KeepNewest..] else decks
  }

  /** Retention: the removed and kept decks split the matching ones; at
      most 20 are kept, exactly 20 once there are more; nothing is removed
      from a directory of 20 or fewer; and no removed deck is newer than a
      kept one. */
  lemma RetentionKeepsNewest(files: seq<FileEntry>)
    ensures multiset(PrunedDecks(files)) + multiset(KeptDecks(files)) == multiset(MatchingDecks(files))
    ensures |MatchingDecks(files)| <= KeepNewest ==> PrunedDecks(files) == []
    ensures |MatchingDecks(files)| > KeepNewest ==>
              |KeptDecks(files)| == KeepNewest && |PrunedDecks(files)| == |MatchingDecks(files)| - KeepNewest
    ensures forall r, k :: r in PrunedDecks(files) && k in KeptDecks(files) ==> r.ctime <= k.ctime
    ensures forall f :: f in PrunedDecks(files) ==> f in files && IsDeckName(f.name)
  {
    var decks := MatchingDecks(files);
    if |decks| > KeepNewest {
      var sorted := SortByCtime(decks);
      var cut := |decks| - KeepNewest;
      assert sorted == sorted[..cut] + sorted[cut..];
      forall r, k | r in sorted[..cut] && k in sorted[cut..]
        ensures r.ctime <= k.ctime
      {
        var i :| 0 <= i < cut && sorted[i] == r;
        var j :| cut <= j < |sorted| && sorted[j] == k;
      }
      forall f | f in sorted[..cut]
        ensures f in files && IsDeckName(f.name)
      {
        assert f in multiset(sorted);
      }
    }
  }
}

=== FILE: files.dfy ===
/** Directory entries as the clean-up routines see them through `glob` and
    `os.path.getctime`. */
module Files {
  /** A file name with its creation time, as an integer on the clock the
      routine compares against. */
  datatype FileEntry = FileEntry(name: string, ctime: int)
}

=== FILE: generator.dfy ===
/** `PresentationGenerator`: the render plan of a presentation. Each slide
    becomes an abstract command naming the renderer and what it draws; the
    python-pptx geometry and fonts are not modelled, except where they make
    a renderer raise. */
module PresentationGenerator {
  import opened Wrappers
  import opened JsonValue
  import Text
  import opened Colour
  import opened Models
  import opened DeckFiles

  const HeaderFill: Rgb := Rgb(0, 114, 198)
  const EvenRowFill: Rgb := Rgb(1, 22, 64)
  const OddRowFill: Rgb := Rgb(2, 33, 96)

  /** One written table cell with its fill colour. */
  datatype TableCell = TableCell(row: nat, col: nat, value: Json, fill: Rgb)

  /** The table of a table slide: none, a `len` that raised before the
      table existed, or a table with the cells written into it. `complete`
      is false when writing the cells stopped at an exception. */
  datatype TablePlan =
    | NoTable
    | TableFailed
    | Table(numRows: nat, numCols: nat, cells: seq<TableCell>, complete: bool)

  /** What the title renderer puts under the title: nothing, the joined
      content lines, or an empty box whose text raised `TypeError`. */
  datatype Subtitle = NoSubtitle | SubtitleText(text: string) | SubtitleFailed

  /** A rendered slide. Every slide also gets the background and its three
      decorative shapes. `title` is the value handed to the title's text
      setter. */
  datatype SlideCmd =
    | TitleSlide(title: Json, subtitle: Subtitle, decorativeLine: bool)
    | ContentSlide(title: Json, bullets: seq<Json>, accentBar: bool)
    | TableSlide(title: Json, table: TablePlan, accentBar: bool)

  /** Whether the title's text setter accepts the slide's title. It splits
      its argument as a string, so any other JSON value raises there, the
      first thing each renderer does inside its `try`. */
  predicate TitleAccepted(s: Slide)
  {
    s.title.JStr?
  }

  /** The strings of a list, or `None` when some element is not a string. */
  function AllStrings(xs: seq<Json>): (r: Option<seq<string>>)
    ensures r.Some? <==> forall k :: 0 <= k < |xs| ==> xs[k].JStr?
    ensures r.Some? ==> |r.value| == |xs| && forall k :: 0 <= k < |xs| ==> xs[k] == JStr(r.value[k])
  {
    if xs == [] then Some([])
    else
      var rest := AllStrings(xs[1..]);
      assert forall k :: 1 <= k < |xs| ==> xs[k] == xs[1..][k - 1];
      if !xs[0].JStr? || rest.None? then None else Some([xs[0].s] + rest.value)
  }

  /** The subtitle of a title slide with non-empty content:
      `"\n".join(content)`, which raises for a non-string element. */
  function SubtitleOf(content: seq<Json>): (r: Subtitle)
    requires content != []
    ensures r.SubtitleText? <==> AllStrings(content).Some?
    ensures r.SubtitleText? ==> r.text == Text.Join(AllStrings(content).value, '\n')
  {
    match AllStrings(content)
    case None => SubtitleFailed
    case Some(lines) => SubtitleText(Text.Join(lines, '\n'))
  }

  /** The subtitle keeps every content line: splitting it on newlines gives
      the lines back when none of them holds a newline itself. */
  lemma SubtitleKeepsLines(content: seq<Json>)
    requires content != [] && AllStrings(content).Some?
    requires forall k :: 0 <= k < |content| ==> '\n' !in content[k].s
    ensures Text.Split(SubtitleOf(content).text, '\n') == AllStrings(content).value
  {
    var lines := AllStrings(content).value;
    assert forall k :: 0 <= k < |lines| ==> lines[k] == content[k].s;
    Text.SplitJoin(lines, '\n');
  }

  /** `_create_title_slide` as written: the decorative line's position
      reads `subtitle_top`, which is only assigned when there is content, so
      a title slide without content raises `UnboundLocalError`; the
      renderer's `except` swallows it and the line is never drawn. */
  function TitleSlideAsWritten(s: Slide): (cmd: SlideCmd)
    ensures cmd.TitleSlide? && cmd.title == s.title
    ensures !TitleAccepted(s) || s.content == [] ==> cmd.subtitle == NoSubtitle
    ensures TitleAccepted(s) && s.content != [] ==> cmd.subtitle == SubtitleOf(s.content)
    ensures cmd.decorativeLine <==> cmd.subtitle.SubtitleText?
  {
    if !TitleAccepted(s) || s.content == [] then TitleSlide(s.title, NoSubtitle, false)
    else
      var sub := SubtitleOf(s.content);
      TitleSlide(s.title, sub, sub.SubtitleText?)
  }

  /** A title slide without content loses its decorative line. */
  lemma EmptyTitleSlideLosesLine(title: string)
    ensures TitleSlideAsWritten(Slide(JStr(title), JStr("title"), JStr("centered"), [], JNull, JNull, None)).decorativeLine == false
  {
  }

  /** The title renderer with the line drawn whenever no exception
      interrupts the slide: with or without a subtitle. A rejected title
      still ends the slide. */
  function TitleSlidePlan(s: Slide): (cmd: SlideCmd)
    ensures cmd.TitleSlide? && cmd.title == s.title
    ensures !TitleAccepted(s) || s.content == [] ==> cmd.subtitle == NoSubtitle
    ensures TitleAccepted(s) && s.content != [] ==> cmd.subtitle == SubtitleOf(s.content)
    ensures cmd.decorativeLine <==> TitleAccepted(s) && !cmd.subtitle.SubtitleFailed?
  {
    if !TitleAccepted(s) then TitleSlide(s.title, NoSubtitle, false)
    else if s.content == [] then TitleSlide(s.title, NoSubtitle, true)
    else
      var sub := SubtitleOf(s.content);
      TitleSlide(s.title, sub, sub.SubtitleText?)
  }

  /** The two title renderers differ exactly on slides with an accepted
      title and no content. */
  lemma TitlePlansDifferOnlyWhenEmpty(s: Slide)
    ensures TitleSlidePlan(s) != TitleSlideAsWritten(s) <==> TitleAccepted(s) && s.content == []
    ensures TitleAccepted(s) && s.content == [] ==>
              TitleSlidePlan(s).decorativeLine && !TitleSlideAsWritten(s).decorativeLine
  {
  }

  /** `_create_content_slide`: the title, a bullet per content item (no
      text box when there are none), and the accent bar; a rejected title
      leaves out the bullets and the bar. */
  function ContentSlidePlan(s: Slide): (cmd: SlideCmd)
    ensures cmd.ContentSlide? && cmd.title == s.title
    ensures cmd.accentBar <==> TitleAccepted(s)
    ensures TitleAccepted(s) ==> cmd.bullets == s.content
    ensures !TitleAccepted(s) ==> cmd.bullets == []
  {
    if TitleAccepted(s) then ContentSlide(s.title, s.content, true) else ContentSlide(s.title, [], false)
  }

  /** The fill of a data row: even row indices dark, odd ones lighter. */
  function RowFill(row: nat): (fill: Rgb)
    ensures fill != HeaderFill
  {
    if row % 2 == 0 then EvenRowFill else OddRowFill
  }

  /** The cells of one row of the table, in column order. */
  function RowOf(values: seq<Json>, row: nat, fill: Rgb): (r: seq<TableCell>)
    ensures |r| == |values|
    ensures forall k :: 0 <= k < |r| ==> r[k] == TableCell(row, k, values[k], fill)
  {
    seq(|values|, k requires 0 <= k < |values| => TableCell(row, k, values[k], fill))
  }

  /** Whether a data row can be written whole into `numCols` columns. */
  predicate RowFits(row: Json, numCols: nat)
  {
    Iterate(row).Some? && |Iterate(row).value| <= numCols
  }

  /** The data rows written from index `row` on. A row that cannot be
      iterated stops the writing before it; a row longer than the table
      writes its first `numCols` cells and then `table.cell` raises
      `IndexError`. The flag says whether every row went in. */
  function DataCells(rows: seq<Json>, numCols: nat, row: nat): (r: (seq<TableCell>, bool))
    ensures r.1 <==> forall k :: 0 <= k < |rows| ==> RowFits(rows[k], numCols)
    decreases |rows|
  {
    if rows == [] then ([], true)
    else
      match Iterate(rows[0])
      case None => ([], false)
      case Some(values) =>
        if |values| > numCols then (RowOf(values[..numCols], row, RowFill(row)), false)
        else
          var rest := DataCells(rows[1..], numCols, row + 1);
          assert forall k :: 1 <= k < |rows| ==> rows[k] == rows[1..][k - 1];
          (RowOf(values, row, RowFill(row)) + rest.0, rest.1)
  }

  /** Cell `c` lies in its row and column, takes the row's fill, and holds
      the entry of data row `c.row - row` of `rows`. */
  predicate CellFromRows(c: TableCell, rows: seq<Json>, numCols: nat, row: nat)
  {
    && row <= c.row < row + |rows|
    && c.col < numCols
    && c.fill == RowFill(c.row)
    && Iterate(rows[c.row - row]).Some?
    && c.col < |Iterate(rows[c.row - row]).value|
    && c.value == Iterate(rows[c.row - row]).value[c.col]
  }

  /** Every written cell lies in its row and column, takes the row's
      fill, and holds the entry of its data row. */
  lemma {:induction false} DataCellsSound(rows: seq<Json>, numCols: nat, row: nat)
    ensures forall c :: c in DataCells(rows, numCols, row).0 ==> CellFromRows(c, rows, numCols, row)
    decreases |rows|
  {
    if rows != [] && Iterate(rows[0]).Some? {
      var values := Iterate(rows[0]).value;
      if |values| > numCols {
        var head := values[..numCols];
        RowOfContains(head, row, RowFill(row));
        assert DataCells(rows, numCols, row).0 == RowOf(head, row, RowFill(row));
        forall c | c in RowOf(head, row, RowFill(row))
          ensures CellFromRows(c, rows, numCols, row)
        {
          assert c.value == head[c.col] == values[c.col];
        }
      } else {
        var tail := rows[1..];
        var rest := DataCells(tail, numCols, row + 1).0;
        DataCellsSound(tail, numCols, row + 1);
        RowOfContains(values, row, RowFill(row));
        assert DataCells(rows, numCols, row).0 == RowOf(values, row, RowFill(row)) + rest;
        forall c | c in rest
          ensures CellFromRows(c, rows, numCols, row)
        {
          assert CellFromRows(c, tail, numCols, row + 1);
          assert rows[c.row - row] == tail[c.row - (row + 1)];
        }
      }
    }
  }

  /** What membership in one written row tells about a cell. */
  lemma RowOfContains(values: seq<Json>, row: nat, fill: Rgb)
    ensures forall c :: c in RowOf(values, row, fill) ==>
              c.row == row && c.col < |values| && c.value == values[c.col] && c.fill == fill
  {
    forall c | c in RowOf(values, row, fill)
      ensures c.row == row && c.col < |values| && c.value == values[c.col] && c.fill == fill
    {
      var k :| 0 <= k < |values| && RowOf(values, row, fill)[k] == c;
    }
  }

  /** When every row fits, every entry of every row is written, in its own
      row and column. */
  lemma DataCellsComplete(rows: seq<Json>, numCols: nat, row: nat)
    requires forall k :: 0 <= k < |rows| ==> RowFits(rows[k], numCols)
    ensures forall k, j :: 0 <= k < |rows| && Iterate(rows[k]).Some? && 0 <= j < |Iterate(rows[k]).value| ==>
              TableCell(row + k, j, Iterate(rows[k]).value[j], RowFill(row + k)) in DataCells(rows, numCols, row).0
  {
    forall k, j | 0 <= k < |rows| && Iterate(rows[k]).Some? && 0 <= j < |Iterate(rows[k]).value|
      ensures TableCell(row + k, j, Iterate(rows[k]).value[j], RowFill(row + k)) in DataCells(rows, numCols, row).0
    {
      DataCellAt(rows, numCols, row, k, j);
    }
  }

  /** The cell for entry `j` of data row `k` is written. */
  lemma {:induction false} DataCellAt(rows: seq<Json>, numCols: nat, row: nat, k: nat, j: nat)
    requires forall i :: 0 <= i < |rows| ==> RowFits(rows[i], numCols)
    requires k < |rows| && Iterate(rows[k]).Some? && j < |Iterate(rows[k]).value|
    ensures TableCell(row + k, j, Iterate(rows[k]).value[j], RowFill(row + k)) in DataCells(rows, numCols, row).0
    decreases k
  {
    assert RowFits(rows[0], numCols);
    DataCellsUnfold(rows, numCols, row);
    var head := RowOf(Iterate(rows[0]).value, row, RowFill(row));
    if k == 0 {
      assert head[j] == TableCell(row, j, Iterate(rows[0]).value[j], RowFill(row));
    } else {
      var tail := rows[1..];
      assert forall i :: 0 <= i < |tail| ==> tail[i] == rows[i + 1];
      assert tail[k - 1] == rows[k];
      DataCellAt(tail, numCols, row + 1, k - 1, j);
    }
  }

  /** One step of `DataCells` on a row that fits. */
  lemma DataCellsUnfold(rows: seq<Json>, numCols: nat, row: nat)
    requires rows != [] && RowFits(rows[0], numCols)
    ensures DataCells(rows, numCols, row).0
            == RowOf(Iterate(rows[0]).value, row, RowFill(row)) + DataCells(rows[1..], numCols, row + 1).0
  {
  }

  /** `_create_table_slide`'s table with integral column widths
      (`table_width // num_cols`): drawn only when the slide has table data
      whose `headers` and `rows` are both truthy, with `len(rows) + 1` rows
      and `len(headers)` columns; headers fill row 0 and the data rows
      follow from index 1. */
  function TablePlanOf(td: Option<TableData>): (t: TablePlan)
    ensures t.NoTable? <==> td.None? || !Truthy(td.value.headers) || !Truthy(td.value.rows)
    ensures t.Table? <==>
              && td.Some? && Truthy(td.value.headers) && Truthy(td.value.rows)
              && Len(td.value.headers).Some? && Len(td.value.rows).Some?
    ensures t.Table? ==>
              && t.numRows == Len(td.value.rows).value + 1
              && t.numCols == Len(td.value.headers).value
              && t.numCols > 0
    ensures t.Table? ==> forall c :: c in t.cells ==> c.row < t.numRows && c.col < t.numCols
    ensures t.Table? ==> forall c :: c in t.cells ==> (c.row == 0 <==> c.fill == HeaderFill)
    ensures t.Table? ==> forall c :: c in t.cells && c.row > 0 ==> c.fill == RowFill(c.row)
    ensures t.Table? ==>
              && |t.cells| >= t.numCols
              && t.cells[..t.numCols] == RowOf(Iterate(td.value.headers).value, 0, HeaderFill)
    ensures t.Table? ==> (t.complete <==> forall k :: 0 <= k < |Iterate(td.value.rows).value| ==>
                                             RowFits(Iterate(td.value.rows).value[k], t.numCols))
  {
    if td.None? || !Truthy(td.value.headers) || !Truthy(td.value.rows) then NoTable
    else
      var headers := td.value.headers;
      var rows := td.value.rows;
      if Len(rows).None? || Len(headers).None? then TableFailed
      else
        var numCols := Len(headers).value;
        var head := RowOf(Iterate(headers).value, 0, HeaderFill);
        var data := DataCells(Iterate(rows).value, numCols, 1);
        DataCellsSound(Iterate(rows).value, numCols, 1);
        assert (head + data.0)[..numCols] == head;
        Table(Len(rows).value + 1, numCols, head + data.0, data.1)
  }

  /** `_create_table_slide`'s table as written. Once `add_table` has built
      the table, `col.width = table_width / num_cols` assigns a float (true
      division of an integral length), which python-pptx's integral
      coordinate type rejects with `TypeError`; the renderer's `except`
      swallows it before any header or cell is written. */
  function TablePlanAsWritten(td: Option<TableData>): (t: TablePlan)
    ensures t.NoTable? <==> td.None? || !Truthy(td.value.headers) || !Truthy(td.value.rows)
    ensures t.Table? <==>
              && td.Some? && Truthy(td.value.headers) && Truthy(td.value.rows)
              && Len(td.value.headers).Some? && Len(td.value.rows).Some?
    ensures t.Table? ==>
              && t.numRows == Len(td.value.rows).value + 1
              && t.numCols == Len(td.value.headers).value
              && t.numCols > 0
    ensures t.Table? ==> t.cells == [] && !t.complete
  {
    if td.None? || !Truthy(td.value.headers) || !Truthy(td.value.rows) then NoTable
    else
      var headers := td.value.headers;
      var rows := td.value.rows;
      if Len(rows).None? || Len(headers).None? then TableFailed
      else Table(Len(rows).value + 1, Len(headers).value, [], false)
  }

  /** The two table plans agree except where a table gets built: there the
      program as written leaves it empty, the corrected one fills it. */
  lemma TablePlansDifferOnlyWhenBuilt(td: Option<TableData>)
    ensures TablePlanAsWritten(td) != TablePlanOf(td) <==> TablePlanOf(td).Table?
    ensures TablePlanOf(td).Table? ==>
              && TablePlanAsWritten(td) == Table(TablePlanOf(td).numRows, TablePlanOf(td).numCols, [], false)
              && TablePlanOf(td).cells != []
  {
    if TablePlanOf(td).Table? {
      assert |TablePlanOf(td).cells| >= TablePlanOf(td).numCols > 0;
    }
  }

  /** The accent bar is drawn after the table, so any exception while
      building the table leaves it out. */
  function TableSlidePlan(s: Slide): (cmd: SlideCmd)
    ensures cmd.TableSlide? && cmd.title == s.title
    ensures TitleAccepted(s) ==> cmd.table == TablePlanOf(s.tableData)
    ensures !TitleAccepted(s) ==> cmd.table == NoTable
    ensures cmd.accentBar <==> TitleAccepted(s) && (cmd.table.NoTable? || (cmd.table.Table? && cmd.table.complete))
  {
    if !TitleAccepted(s) then TableSlide(s.title, NoTable, false)
    else
      var t := TablePlanOf(s.tableData);
      TableSlide(s.title, t, t.NoTable? || (t.Table? && t.complete))
  }

  /** `_create_table_slide` as written: the accent bar is drawn only when no
      table was attempted, because building one always raises. */
  function TableSlideAsWritten(s: Slide): (cmd: SlideCmd)
    ensures cmd.TableSlide? && cmd.title == s.title
    ensures TitleAccepted(s) ==> cmd.table == TablePlanAsWritten(s.tableData)
    ensures !TitleAccepted(s) ==> cmd.table == NoTable
    ensures cmd.accentBar <==>
              && TitleAccepted(s)
              && (s.tableData.None? || !Truthy(s.tableData.value.headers) || !Truthy(s.tableData.value.rows))
  {
    if !TitleAccepted(s) then TableSlide(s.title, NoTable, false)
    else
      var t := TablePlanAsWritten(s.tableData);
      TableSlide(s.title, t, t.NoTable?)
  }

  /** A well-formed table (list headers, list rows each no longer than the
      headers) is drawn whole, with every cell in place. */
  lemma WellFormedTableDrawn(headers: seq<Json>, rows: seq<Json>)
    requires |headers| > 0 && |rows| > 0
    requires forall k :: 0 <= k < |rows| ==> rows[k].JArr? && |rows[k].items| <= |headers|
    ensures var t := TablePlanOf(Some(TableData(JArr(headers), JArr(rows))));
            && t.Table? && t.complete
            && t.numRows == |rows| + 1 && t.numCols == |headers|
            && (forall j :: 0 <= j < |headers| ==> TableCell(0, j, headers[j], HeaderFill) in t.cells)
            && (forall k, j :: 0 <= k < |rows| && 0 <= j < |rows[k].items| ==>
                  TableCell(k + 1, j, rows[k].items[j], RowFill(k + 1)) in t.cells)
  {
    var t := TablePlanOf(Some(TableData(JArr(headers), JArr(rows))));
    assert forall k :: 0 <= k < |rows| ==> RowFits(rows[k], |headers|);
    DataCellsComplete(rows, |headers|, 1);
    var head := RowOf(headers, 0, HeaderFill);
    var data := DataCells(rows, |headers|, 1).0;
    assert t.cells == head + data;
    forall j | 0 <= j < |headers|
      ensures TableCell(0, j, headers[j], HeaderFill) in t.cells
    {
      assert t.cells[j] == head[j];
    }
    forall k, j | 0 <= k < |rows| && 0 <= j < |rows[k].items|
      ensures TableCell(k + 1, j, rows[k].items[j], RowFill(k + 1)) in t.cells
    {
      assert TableCell(1 + k, j, Iterate(rows[k]).value[j], RowFill(1 + k)) in data;
    }
  }

  /** The same well-formed table as written: the table is built with its
      rows and columns, but no header or cell is written into it and the
      accent bar is missing. */
  lemma WellFormedTableLeftEmpty(headers: seq<Json>, rows: seq<Json>)
    requires |headers| > 0 && |rows| > 0
    requires forall k :: 0 <= k < |rows| ==> rows[k].JArr? && |rows[k].items| <= |headers|
    ensures var s := Slide(JStr("Data"), JStr("table"), JStr("centered"), [], JNull, JNull,
                           Some(TableData(JArr(headers), JArr(rows))));
            && TableSlideAsWritten(s) == TableSlide(JStr("Data"), Table(|rows| + 1, |headers|, [], false), false)
            && TableSlidePlan(s) != TableSlideAsWritten(s)
  {
    var td := Some(TableData(JArr(headers), JArr(rows)));
    TablePlansDifferOnlyWhenBuilt(td);
  }

  /** Which renderer a slide goes to. */
  datatype Renderer = TitleRenderer | TableRenderer | ContentRenderer

  /** Dispatch on `slide.type.lower()`: `title` and `table` have their own
      renderers, every other type gets the content renderer. */
  function RendererFor(kind: string): (r: Renderer)
    ensures r == TitleRenderer <==> Text.Lower(kind) == "title"
    ensures r == TableRenderer <==> Text.Lower(kind) == "table"
    ensures r == ContentRenderer <==> Text.Lower(kind) != "title" && Text.Lower(kind) != "table"
  {
    var k := Text.Lower(kind);
    if k == "title" then TitleRenderer else if k == "table" then TableRenderer else ContentRenderer
  }

  /** Dispatch ignores letter case. */
  lemma DispatchIgnoresCase(a: string, b: string)
    requires |a| == |b| && forall i :: 0 <= i < |a| ==> Text.LowerChar(a[i]) == Text.LowerChar(b[i])
    ensures RendererFor(a) == RendererFor(b)
  {
    assert Text.Lower(a) == Text.Lower(b);
  }

  /** The slide the program's renderers draw for a slide whose type is a
      string: a title slide loses its line without content, and a table
      that gets built stays empty. */
  function RenderSlideAsWritten(s: Slide): (cmd: SlideCmd)
    requires s.kind.JStr?
    ensures cmd.TitleSlide? <==> RendererFor(s.kind.s) == TitleRenderer
    ensures cmd.TableSlide? <==> RendererFor(s.kind.s) == TableRenderer
    ensures cmd.ContentSlide? <==> RendererFor(s.kind.s) == ContentRenderer
    ensures cmd.title == s.title
    ensures cmd.TitleSlide? ==>
              (cmd.decorativeLine <==> TitleAccepted(s) && s.content != [] && AllStrings(s.content).Some?)
    ensures cmd.TableSlide? ==> cmd.table == (if TitleAccepted(s) then TablePlanAsWritten(s.tableData) else NoTable)
    ensures cmd.ContentSlide? ==> cmd.bullets == (if TitleAccepted(s) then s.content else [])
  {
    match RendererFor(s.kind.s)
    case TitleRenderer => TitleSlideAsWritten(s)
    case TableRenderer => TableSlideAsWritten(s)
    case ContentRenderer => ContentSlidePlan(s)
  }

  /** The slide the corrected renderers draw: the title slide's line
      whenever no exception interrupts it, and the table filled in. */
  function RenderSlide(s: Slide): (cmd: SlideCmd)
    requires s.kind.JStr?
    ensures cmd.TitleSlide? <==> RendererFor(s.kind.s) == TitleRenderer
    ensures cmd.TableSlide? <==> RendererFor(s.kind.s) == TableRenderer
    ensures cmd.ContentSlide? <==> RendererFor(s.kind.s) == ContentRenderer
    ensures cmd.title == s.title
    ensures cmd.TitleSlide? ==>
              (cmd.decorativeLine <==> TitleAccepted(s) && (s.content == [] || AllStrings(s.content).Some?))
    ensures cmd.TableSlide? ==> cmd.table == (if TitleAccepted(s) then TablePlanOf(s.tableData) else NoTable)
    ensures cmd.ContentSlide? ==> cmd.bullets == (if TitleAccepted(s) then s.content else [])
  {
    match RendererFor(s.kind.s)
    case TitleRenderer => TitleSlidePlan(s)
    case TableRenderer => TableSlidePlan(s)
    case ContentRenderer => ContentSlidePlan(s)
  }

  /** The slides the two title and table defects touch: a title slide
      without content, and a table slide whose table gets built, each with
      an accepted title. */
  predicate Repaired(s: Slide)
  {
    && s.kind.JStr?
    && TitleAccepted(s)
    && ((RendererFor(s.kind.s) == TitleRenderer && s.content == [])
        || (RendererFor(s.kind.s) == TableRenderer && TablePlanAsWritten(s.tableData).Table?))
  }

  /** The program's renderers and the corrected ones draw the same slide
      except exactly on the slides the defects touch. */
  lemma RenderersDifferOnlyWhenRepaired(s: Slide)
    requires s.kind.JStr?
    ensures RenderSlideAsWritten(s) != RenderSlide(s) <==> Repaired(s)
  {
    TitlePlansDifferOnlyWhenEmpty(s);
    TablePlansDifferOnlyWhenBuilt(s.tableData);
  }

  /** The slides drawn for `presentation.slides`, in order, by the
      program's renderers. A type that is not a string has no `.lower()`:
      the `AttributeError` ends the loop, and the flag is false. */
  function RenderSlides(slides: seq<Slide>): (r: (seq<SlideCmd>, bool))
    ensures r.1 <==> forall k :: 0 <= k < |slides| ==> slides[k].kind.JStr?
    ensures |r.0| <= |slides|
    ensures r.1 ==> |r.0| == |slides|
    ensures !r.1 ==> |r.0| < |slides| && !slides[|r.0|].kind.JStr?
    ensures forall k :: 0 <= k < |r.0| ==> slides[k].kind.JStr? && r.0[k] == RenderSlideAsWritten(slides[k])
  {
    if slides == [] then ([], true)
    else if !slides[0].kind.JStr? then ([], false)
    else
      var rest := RenderSlides(slides[1..]);
      assert forall k :: 1 <= k < |slides| ==> slides[k] == slides[1..][k - 1];
      ([RenderSlideAsWritten(slides[0])] + rest.0, rest.1)
  }

  /** The same slides drawn by the corrected renderers: the loop stops at
      the same slide, since only the type decides that. */
  function RenderSlidesCorrected(slides: seq<Slide>): (r: seq<SlideCmd>)
    ensures |r| == |RenderSlides(slides).0|
    ensures forall k :: 0 <= k < |r| ==> slides[k].kind.JStr? && r[k] == RenderSlide(slides[k])
  {
    var n := |RenderSlides(slides).0|;
    seq(n, k requires 0 <= k < n => RenderSlide(slides[k]))
  }

  /** The leading title slide `generate` builds from the presentation's own
      title, with the subtitle as its only content line. */
  function LeadingTitle(p: Presentation): Slide
  {
    Slide(p.title, JStr("title"), JStr("centered"), [p.subtitle], JNull, JNull, None)
  }

  /** What `generate` leaves behind: the deck it drew into and the file
      name it returns (`None` when it failed). */
  datatype Generated = Generated(deck: seq<SlideCmd>, fileName: Option<string>)

  /** The slides one `generate` call draws: the leading title slide, then
      the presentation's slides up to the first one that raised. */
  function DrawnSlides(p: Presentation): seq<SlideCmd>
  {
    [TitleSlideAsWritten(LeadingTitle(p))] + RenderSlides(p.slides).0
  }

  /** The name one `generate` call returns: the deck's file name when every
      slide was drawn. */
  function SavedName(p: Presentation, now: DateTime): Option<string>
  {
    if RenderSlides(p.slides).1 then Some(DeckFileName(now)) else None
  }

  /** `generate(presentation)`. The generator keeps one deck for its
      lifetime, so slides are appended after those of earlier calls,
      including the slides of a call that failed part-way. `now` is the
      clock reading used for the file name. */
  function Generate(prior: seq<SlideCmd>, p: Presentation, now: DateTime): (r: Generated)
    ensures |r.deck| > |prior| && r.deck[..|prior|] == prior
    ensures r.deck[|prior|] == TitleSlideAsWritten(LeadingTitle(p))
    ensures r.fileName.Some? <==> forall k :: 0 <= k < |p.slides| ==> p.slides[k].kind.JStr?
    ensures r.fileName.Some? ==> r.fileName.value == DeckFileName(now) && |r.deck| == |prior| + 1 + |p.slides|
    ensures forall k :: 0 <= k < |r.deck| - |prior| - 1 ==>
              k < |p.slides| && p.slides[k].kind.JStr? && r.deck[|prior| + 1 + k] == RenderSlideAsWritten(p.slides[k])
  {
    Generated(prior + DrawnSlides(p), SavedName(p, now))
  }

  /** The leading slide shows the presentation's string subtitle and its
      decorative line when the title is a string, and neither otherwise;
      both title renderers agree on it. */
  lemma LeadingTitleShowsSubtitle(p: Presentation)
    requires p.subtitle.JStr?
    ensures p.title.JStr? ==> TitleSlideAsWritten(LeadingTitle(p)) == TitleSlide(p.title, SubtitleText(p.subtitle.s), true)
    ensures !p.title.JStr? ==> TitleSlideAsWritten(LeadingTitle(p)) == TitleSlide(p.title, NoSubtitle, false)
    ensures TitleSlidePlan(LeadingTitle(p)) == TitleSlideAsWritten(LeadingTitle(p))
  {
    var lines := AllStrings([p.subtitle]).value;
    assert |lines| == 1 && [p.subtitle][0] == JStr(lines[0]);
    assert lines == [p.subtitle.s];
  }

  /** Dispatch, slide by slide, for a successful call: slide `k + 1` of the
      new slides is drawn by the renderer that the type of input slide `k`
      selects, case-insensitively. */
  lemma GenerateDispatch(prior: seq<SlideCmd>, p: Presentation, now: DateTime, k: nat)
    requires Generate(prior, p, now).fileName.Some? && k < |p.slides|
    ensures var cmd := Generate(prior, p, now).deck[|prior| + 1 + k];
            && cmd.title == p.slides[k].title
            && (Text.Lower(p.slides[k].kind.s) == "title" <==> cmd.TitleSlide?)
            && (Text.Lower(p.slides[k].kind.s) == "table" <==> cmd.TableSlide?)
            && (cmd.TableSlide? && p.slides[k].title.JStr? ==> cmd.table == TablePlanAsWritten(p.slides[k].tableData))
            && (cmd.TableSlide? && !p.slides[k].title.JStr? ==> cmd.table == NoTable && !cmd.accentBar)
  {
  }

  /** A generator used twice saves the first presentation's slides again,
      ahead of the second one's. */
  lemma SecondCallRepeatsFirstDeck(p: Presentation, q: Presentation, t1: DateTime, t2: DateTime)
    requires Generate([], p, t1).fileName.Some? && Generate(Generate([], p, t1).deck, q, t2).fileName.Some?
    ensures var first := Generate([], p, t1).deck;
            var second := Generate(first, q, t2).deck;
            && second[..|first|] == first
            && |second| == (1 + |p.slides|) + (1 + |q.slides|)
  {
  }

  /** The corrected `generate`: a fresh deck on every call, so that each
      saved file holds exactly its own presentation, drawn by the corrected
      renderers. */
  function GenerateFresh(p: Presentation, now: DateTime): (r: Generated)
    ensures |r.deck| >= 1 && r.deck[0] == TitleSlidePlan(LeadingTitle(p))
    ensures r.fileName.Some? <==> forall k :: 0 <= k < |p.slides| ==> p.slides[k].kind.JStr?
    ensures r.fileName.Some? ==> r.fileName.value == DeckFileName(now) && |r.deck| == 1 + |p.slides|
    ensures forall k :: 0 <= k < |r.deck| - 1 ==>
              k < |p.slides| && p.slides[k].kind.JStr? && r.deck[1 + k] == RenderSlide(p.slides[k])
  {
    var rest := RenderSlidesCorrected(p.slides);
    var deck := [TitleSlidePlan(LeadingTitle(p))] + rest;
    assert forall k :: 0 <= k < |rest| ==> deck[1 + k] == rest[k];
    Generated(deck, SavedName(p, now))
  }

  /** The second call of the generator as written saves the first call's
      deck followed by exactly what the same call draws into a fresh deck. */
  lemma FreshDeckPerCall(p: Presentation, q: Presentation, t1: DateTime, t2: DateTime)
    ensures var first := Generate([], p, t1).deck;
            Generate(first, q, t2) == Generated(first + Generate([], q, t2).deck, Generate([], q, t2).fileName)
  {
    assert [] + DrawnSlides(q) == DrawnSlides(q);
  }

  /** A first call of the generator as written and the corrected generator
      return the same name, and draw decks of the same length that open
      with the same title slide. */
  lemma DecksAgreeOnShape(p: Presentation, now: DateTime)
    ensures Generate([], p, now).fileName == GenerateFresh(p, now).fileName
    ensures |Generate([], p, now).deck| == |GenerateFresh(p, now).deck|
    ensures Generate([], p, now).deck[0] == GenerateFresh(p, now).deck[0]
  {
    TitlePlansDifferOnlyWhenEmpty(LeadingTitle(p));
  }

  /** Slide `k` drawn by the program's renderers differs from the one the
      corrected renderers draw exactly when the defects touch input slide
      `k`. */
  lemma DrawnSlideDiffersOnlyWhenRepaired(slides: seq<Slide>, k: nat)
    requires k < |RenderSlides(slides).0|
    ensures k < |slides| && k < |RenderSlidesCorrected(slides)|
    ensures RenderSlides(slides).0[k] != RenderSlidesCorrected(slides)[k] <==> Repaired(slides[k])
  {
    RenderersDifferOnlyWhenRepaired(slides[k]);
  }

  /** Past the leading slide, slide `k + 1` of a first call's deck as
      written and of the corrected deck differ exactly when the defects
      touch input slide `k`. */
  lemma DeckSlideDiffersOnlyWhenRepaired(p: Presentation, now: DateTime, k: nat)
    requires k < |RenderSlides(p.slides).0|
    ensures k + 1 < |Generate([], p, now).deck| && k + 1 < |GenerateFresh(p, now).deck| && k < |p.slides|
    ensures Generate([], p, now).deck[1 + k] != GenerateFresh(p, now).deck[1 + k] <==> Repaired(p.slides[k])
  {
    var drawn := RenderSlides(p.slides).0;
    var fixed := RenderSlidesCorrected(p.slides);
    assert Generate([], p, now).deck == [] + ([TitleSlideAsWritten(LeadingTitle(p))] + drawn);
    assert GenerateFresh(p, now).deck == [TitleSlidePlan(LeadingTitle(p))] + fixed;
    DrawnSlideDiffersOnlyWhenRepaired(p.slides, k);
  }
}

=== FILE: json.dfy ===
/** Decoded JSON values as the Python code sees them after `json.loads`, with
    the Python built-ins the application applies to them: truthiness, `len`,
    iteration, `dict.get` and the `in` operator. */
module JsonValue {
  import opened Wrappers
  import Text

  /** A JSON object is a Python dict: `fields` holds its entries and `order`
      the insertion order in which iteration visits the keys. */
  datatype Json =
    | JNull
    | JBool(b: bool)
    | JNum(n: real)
    | JStr(s: string)
    | JArr(items: seq<Json>)
    | JObj(fields: map<string, Json>, order: seq<string>)

  const EmptyObj: Json := JObj(map[], [])
  const EmptyArr: Json := JArr([])

  /** A one-entry object `{key: value}`. */
  function Singleton(key: string, value: Json): (r: Json)
    ensures r.JObj? && r.fields.Keys == {key} && r.fields[key] == value
  {
    JObj(map[key := value], [key])
  }

  /** `len(j)`, or `None` when `len` raises `TypeError`. */
  function Len(j: Json): Option<nat>
  {
    match j
    case JStr(s) => Some(|s|)
    case JArr(xs) => Some(|xs|)
    case JObj(_, order) => Some(|order|)
    case _ => None
  }

  /** Python truthiness: `None`, `False`, zero and the empty containers are
      false, everything else is true. */
  predicate Truthy(j: Json)
  {
    match j
    case JNull => false
    case JBool(b) => b
    case JNum(n) => n != 0.0
    case _ => Len(j) != Some(0)
  }

  /** The values a Python `for` loop over `j` visits: the elements of a list,
      the one-character strings of a string, the keys of a dict. `None` when
      the loop raises `TypeError`. */
  function Iterate(j: Json): (r: Option<seq<Json>>)
    ensures r.Some? <==> Len(j).Some?
    ensures r.Some? ==> |r.value| == Len(j).value
  {
    match j
    case JStr(s) => Some(seq(|s|, i requires 0 <= i < |s| => JStr([s[i]])))
    case JArr(xs) => Some(xs)
    case JObj(_, order) => Some(seq(|order|, i requires 0 <= i < |order| => JStr(order[i])))
    case _ => None
  }

  /** `j[0]` where the code indexes a container that `len` found non-empty:
      the first element or character; indexing a dict with `0` raises
      `KeyError` because JSON keys are strings. */
  function First(j: Json): (r: Option<Json>)
    requires Len(j).Some? && Len(j).value > 0
    ensures r.Some? <==> !j.JObj?
    ensures r.Some? ==> Iterate(j).value[0] == r.value
  {
    match j
    case JStr(s) => Some(JStr([s[0]]))
    case JArr(xs) => Some(xs[0])
    case JObj(_, _) => None
  }

  /** `d.get(key, default)` on a dict's entries. */
  function Get(fields: map<string, Json>, key: string, default: Json): (r: Json)
    ensures key in fields ==> r == fields[key]
    ensures key !in fields ==> r == default
  {
    if key in fields then fields[key] else default
  }

  /** `key in container` for a string key: dict membership, list membership
      by equality, or substring search in a string. `None` when `in`
      raises `TypeError` (numbers, booleans, `None`). */
  function In(key: string, container: Json): (r: Option<bool>)
    ensures r.Some? <==> (container.JObj? || container.JArr? || container.JStr?)
    ensures container.JObj? ==> r == Some(key in container.fields)
    ensures container.JArr? ==> r == Some(JStr(key) in container.items)
  {
    match container
    case JObj(fields, _) => Some(key in fields)
    case JArr(xs) => Some(JStr(key) in xs)
    case JStr(s) => Some(Text.Contains(s, key))
    case _ => None
  }

  /** A dict whose iteration order lists each of its keys exactly once, as
      every Python dict's does. */
  predicate WellFormedObj(j: Json)
  {
    && j.JObj?
    && (forall k :: k in j.fields ==> k in j.order)
    && (forall i :: 0 <= i < |j.order| ==> j.order[i] in j.fields)
    && (forall a, b :: 0 <= a < b < |j.order| ==> j.order[a] != j.order[b])
  }

  /** A well-formed dict holding some key is truthy. */
  lemma NonEmptyObjTruthy(j: Json, key: string)
    requires WellFormedObj(j) && key in j.fields
    ensures Truthy(j)
  {
    assert key in j.order;
  }

  /** A container is truthy exactly when a loop over it visits something. */
  lemma TruthyContainerIsNonEmpty(j: Json)
    requires Iterate(j).Some?
    ensures Truthy(j) <==> |Iterate(j).value| > 0
  {
  }
}

=== FILE: llm_service.dfy ===
/** `LLMService`: recovering a JSON value from the language model's answer.
    `json.loads` is a parameter `parse` (a library parser whose grammar is
    not modelled); the chat-completion call is reduced to its outcome. */
module LlmService {
  import opened Wrappers
  import opened JsonValue
  import Text

  /** `text[i..j]` runs from the first `{` of `text` to its last `}`. */
  predicate WidestBraceSpan(text: string, i: int, j: int)
  {
    && 0 <= i < j <= |text|
    && text[i] == '{' && text[j - 1] == '}'
    && '{' !in text[..i] && '}' !in text[j..]
  }

  /** Every span that opens with `{` and closes with `}` lies inside the
      widest one. */
  lemma WidestSpanContainsAll(text: string, i: int, j: int, i': int, j': int)
    requires WidestBraceSpan(text, i, j)
    requires 0 <= i' < j' <= |text| && text[i'] == '{' && text[j' - 1] == '}'
    ensures i <= i' && j' <= j
  {
  }

  /** The second candidate: `text[text.find('{') : text.rfind('}') + 1]`,
      present only when both braces occur. When the last `}` comes before
      the first `{`, Python's slice is empty. */
  function BraceCandidate(text: string): (r: Option<string>)
    ensures r.Some? <==> '{' in text && '}' in text
    ensures r.Some? && r.value != [] ==> exists i, j :: WidestBraceSpan(text, i, j) && r.value == text[i..j]
    ensures r.Some? ==> (r.value == [] <==> forall i, j :: 0 <= i < |text| && 0 <= j < |text| && text[i] == '{' && text[j] == '}' ==> j < i)
  {
    var start := Text.Find(text, '{');
    var end := Text.RFind(text, '}') + 1;
    if start != -1 && end > 0 then
      assert start < end ==> WidestBraceSpan(text, start, end);
      Some(Text.Slice(text, start, end))
    else None
  }

  /** `_extract_json_from_text`: parse the whole text; failing that, parse
      the brace candidate; failing that, `None`. It never raises. */
  function ExtractJson(parse: string -> Option<Json>, text: string): (r: Option<Json>)
    ensures parse(text).Some? ==> r == parse(text)
    ensures parse(text).None? && BraceCandidate(text).None? ==> r == None
    ensures parse(text).None? && BraceCandidate(text).Some? ==> r == parse(BraceCandidate(text).value)
  {
    match parse(text)
    case Some(v) => Some(v)
    case None =>
      var start := Text.Find(text, '{');
      var end := Text.RFind(text, '}') + 1;
      if start != -1 && end > 0 then parse(Text.Slice(text, start, end)) else None
  }

  /** At most two parse attempts: a result is the whole text's parse or the
      parse of the widest `{...}` span (or of the empty string, when the
      braces are inverted). */
  lemma ExtractFromTwoCandidates(parse: string -> Option<Json>, text: string)
    ensures ExtractJson(parse, text).Some? ==>
              || ExtractJson(parse, text) == parse(text)
              || ExtractJson(parse, text) == parse([])
              || exists i, j :: WidestBraceSpan(text, i, j) && ExtractJson(parse, text) == parse(text[i..j])
  {
  }

  /** Without a `{` or without a `}`, only the direct parse can succeed. */
  lemma NoBracesOnlyDirectParse(parse: string -> Option<Json>, text: string)
    requires '{' !in text || '}' !in text
    ensures ExtractJson(parse, text) == parse(text)
  {
  }

  /** When every `}` precedes every `{`, the candidate is empty and, since
      the empty string is not JSON, the result is the direct parse or
      nothing. */
  lemma InvertedBracesOnlyDirectParse(parse: string -> Option<Json>, text: string)
    requires parse([]) == None
    requires '{' in text && '}' in text
    requires forall i, j :: 0 <= i < |text| && 0 <= j < |text| && text[i] == '{' && text[j] == '}' ==> j < i
    ensures ExtractJson(parse, text) == parse(text)
  {
  }

  /** Whatever JSON kind the whole text parses to is returned unchanged. */
  lemma DirectParseWins(parse: string -> Option<Json>, text: string, v: Json)
    requires parse(text) == Some(v)
    ensures ExtractJson(parse, text) == Some(v)
  {
  }

  /** The outcome of the chat-completion call: the message content
      (`None` when the message has none) or an exception. */
  datatype ChatReply = Reply(content: Option<string>) | CallFailed

  /** `generate_presentation_content` after the network call: strip the
      reply, extract JSON, and turn any falsy result into `None`. Every
      exception is caught and also yields `None`. */
  function GenerateContent(parse: string -> Option<Json>, reply: ChatReply): (r: Option<Json>)
    ensures r.Some? ==> Truthy(r.value)
    ensures r.Some? ==> reply.Reply? && reply.content.Some?
                        && r == ExtractJson(parse, Text.Strip(reply.content.value))
    ensures reply.Reply? && reply.content.Some?
            && ExtractJson(parse, Text.Strip(reply.content.value)).Some?
            && Truthy(ExtractJson(parse, Text.Strip(reply.content.value)).value)
            ==> r.Some?
  {
    match reply
    case CallFailed => None
    case Reply(None) => None
    case Reply(Some(content)) =>
      var data := ExtractJson(parse, Text.Strip(content));
      if data.None? || !Truthy(data.value) then None else data
  }

  /** The falsy values JSON can decode to (`null`, `false`, `0`, `""`, `[]`,
      `{}`) never leave the service. */
  lemma FalsyResultsBecomeNone(parse: string -> Option<Json>, content: string)
    requires ExtractJson(parse, Text.Strip(content)) in
             {Some(JNull), Some(JBool(false)), Some(JNum(0.0)), Some(JStr([])), Some(JArr([])), Some(EmptyObj)}
    ensures GenerateContent(parse, Reply(Some(content))) == None
  {
  }
}

=== FILE: models.dfy ===
/** The presentation data model and `Presentation.from_dict`, which turns the
    loosely typed dictionary decoded from the language model's answer into a
    presentation with a theme and a list of slides. */
module Models {
  import opened Wrappers
  import opened JsonValue

  const DefaultPrimaryColor: string := "#0072C6"
  const DefaultSecondaryColor: string := "#404040"
  const DefaultAccentColor: string := "#00B294"

  /** Theme colours. They are copied from the input without type checks, so
      each one is whatever JSON value the input held. */
  datatype Theme = Theme(primaryColor: Json, secondaryColor: Json, accentColor: Json)

  const DefaultTheme: Theme :=
    Theme(JStr(DefaultPrimaryColor), JStr(DefaultSecondaryColor), JStr(DefaultAccentColor))

  /** The `table_data` of a table slide: the `headers` and `rows` entries. */
  datatype TableData = TableData(headers: Json, rows: Json)

  /** A slide. `kind` is the slide's `type` field; like `title` and `layout`
      it is copied without checking its type or value. */
  datatype Slide = Slide(
    title: Json,
    kind: Json,
    layout: Json,
    content: seq<Json>,
    visualNotes: Json,
    notes: Json,
    tableData: Option<TableData>)

  datatype Presentation = Presentation(title: Json, subtitle: Json, theme: Theme, slides: seq<Slide>)

  /** The exceptions `from_dict` lets escape. */
  datatype Error = ValueError(message: string) | AttributeError | TypeError

  /** The top-level keys `from_dict` demands, in the order it checks them. */
  const RequiredFields: seq<string> := ["title", "subtitle", "slides"]

  const UntitledSlide: string := "Untitled Slide"
  const DefaultSlideType: string := "content"
  const DefaultLayout: string := "centered"

  /** The theme built from the input's `theme` dict. */
  function BuildTheme(t: map<string, Json>): (theme: Theme)
  {
    Theme(
      Get(t, "primary_color", DefaultTheme.primaryColor),
      Get(t, "secondary_color", DefaultTheme.secondaryColor),
      Get(t, "accent_color", DefaultTheme.accentColor))
  }

  /** Each colour is taken from the input theme when the key is there and
      from its own default otherwise, independently of the other two. */
  lemma ThemeFieldwise(t: map<string, Json>)
    ensures "primary_color" in t ==> BuildTheme(t).primaryColor == t["primary_color"]
    ensures "primary_color" !in t ==> BuildTheme(t).primaryColor == JStr("#0072C6")
    ensures "secondary_color" in t ==> BuildTheme(t).secondaryColor == t["secondary_color"]
    ensures "secondary_color" !in t ==> BuildTheme(t).secondaryColor == JStr("#404040")
    ensures "accent_color" in t ==> BuildTheme(t).accentColor == t["accent_color"]
    ensures "accent_color" !in t ==> BuildTheme(t).accentColor == JStr("#00B294")
  {
  }

  /** The slide content as a list: a string becomes a one-element list, a
      list is kept, anything else (including a missing key) becomes empty. */
  function NormalizeContent(c: Json): (r: seq<Json>)
  {
    match c
    case JStr(_) => [c]
    case JArr(xs) => xs
    case _ => []
  }

  /** The three cases of content normalisation, and the fact that
      normalising an already normalised list changes nothing. */
  lemma NormalizeContentCases(c: Json)
    ensures c.JStr? ==> NormalizeContent(c) == [c]
    ensures c.JArr? ==> NormalizeContent(c) == c.items
    ensures !c.JStr? && !c.JArr? ==> NormalizeContent(c) == []
    ensures NormalizeContent(JArr(NormalizeContent(c))) == NormalizeContent(c)
  {
  }

  /** `slide_data.get('type') == 'table'`: only the exact string counts. */
  predicate IsTableType(d: map<string, Json>)
  {
    "type" in d && d["type"] == JStr("table")
  }

  /** A table slide whose `table_data` is not a dict: `.get` on it raises
      `AttributeError`, outside the per-slide `try`. */
  predicate TableDataMalformed(d: map<string, Json>)
  {
    IsTableType(d) && "table_data" in d && !d["table_data"].JObj?
  }

  /** One dict entry of `slides` turned into a slide. */
  function NormalizeSlide(d: map<string, Json>): (r: Result<Slide, Error>)
    ensures r.Failure? <==> TableDataMalformed(d)
    ensures r.Failure? ==> r.error == AttributeError
    ensures r.Success? ==> (r.value.tableData.Some? <==> IsTableType(d) && "table_data" in d)
    ensures r.Success? ==> r.value.content == NormalizeContent(Get(d, "content", EmptyArr))
  {
    var content := NormalizeContent(Get(d, "content", EmptyArr));
    if TableDataMalformed(d) then Failure(AttributeError)
    else
      var tableData :=
        if IsTableType(d) && "table_data" in d then
          var t := d["table_data"].fields;
          Some(TableData(Get(t, "headers", EmptyArr), Get(t, "rows", EmptyArr)))
        else None;
      Success(Slide(
        Get(d, "title", JStr(UntitledSlide)),
        Get(d, "type", JStr(DefaultSlideType)),
        Get(d, "layout", JStr(DefaultLayout)),
        content,
        Get(d, "visual_notes", JNull),
        Get(d, "notes", JNull),
        tableData))
  }

  /** Missing slide fields take their defaults; present ones are copied as
      they are, whatever their type. */
  lemma SlideDefaults(d: map<string, Json>)
    requires NormalizeSlide(d).Success?
    ensures NormalizeSlide(d).value.title == (if "title" in d then d["title"] else JStr("Untitled Slide"))
    ensures NormalizeSlide(d).value.kind == (if "type" in d then d["type"] else JStr("content"))
    ensures NormalizeSlide(d).value.layout == (if "layout" in d then d["layout"] else JStr("centered"))
    ensures NormalizeSlide(d).value.visualNotes == (if "visual_notes" in d then d["visual_notes"] else JNull)
    ensures NormalizeSlide(d).value.notes == (if "notes" in d then d["notes"] else JNull)
  {
  }

  /** Table data is lifted only for `type == 'table'` with a `table_data`
      key, and then holds its `headers` and `rows`, each defaulting to `[]`. */
  lemma TableDataLifted(d: map<string, Json>)
    requires IsTableType(d) && "table_data" in d && d["table_data"].JObj?
    ensures NormalizeSlide(d).Success?
    ensures var t := d["table_data"].fields;
            NormalizeSlide(d).value.tableData == Some(TableData(
              if "headers" in t then t["headers"] else JArr([]),
              if "rows" in t then t["rows"] else JArr([])))
  {
  }

  /** The dict entries of the iterated `slides`, in order: the reference for
      which entries become slides. */
  function SlideDicts(items: seq<Json>): (r: seq<map<string, Json>>)
    ensures |r| <= |items|
  {
    if items == [] then []
    else (if items[0].JObj? then [items[0].fields] else []) + SlideDicts(items[1..])
  }

  /** The slide loop of `from_dict`: non-dict entries are skipped, the first
      malformed table slide aborts the loop. */
  function BuildSlides(items: seq<Json>): (r: Result<seq<Slide>, Error>)
    ensures r.Failure? ==> r.error == AttributeError
  {
    if items == [] then Success([])
    else
      var rest := BuildSlides(items[1..]);
      if !items[0].JObj? then rest
      else
        var first := NormalizeSlide(items[0].fields);
        if first.Failure? then Failure(first.error)
        else if rest.Failure? then Failure(rest.error)
        else Success([first.value] + rest.value)
  }

  /** No dict entry is a table slide with malformed table data. */
  predicate NoMalformed(dicts: seq<map<string, Json>>)
  {
    forall k :: 0 <= k < |dicts| ==> !TableDataMalformed(dicts[k])
  }

  /** `slides` are the dict entries `dicts`, each normalised, in order. */
  predicate SlidesMatch(dicts: seq<map<string, Json>>, slides: seq<Slide>)
  {
    |dicts| == |slides| && forall k :: 0 <= k < |dicts| ==> NormalizeSlide(dicts[k]) == Success(slides[k])
  }

  lemma NoMalformedCons(d: map<string, Json>, ds: seq<map<string, Json>>)
    ensures NoMalformed([d] + ds) <==> !TableDataMalformed(d) && NoMalformed(ds)
  {
    var all := [d] + ds;
    assert all[0] == d;
    assert forall k :: 1 <= k < |all| ==> all[k] == ds[k - 1];
    if !TableDataMalformed(d) && NoMalformed(ds) {
      forall k | 0 <= k < |all|
        ensures !TableDataMalformed(all[k])
      {
        if k > 0 {
          assert all[k] == ds[k - 1];
        }
      }
    }
    if NoMalformed(all) {
      forall k | 0 <= k < |ds|
        ensures !TableDataMalformed(ds[k])
      {
        assert all[k + 1] == ds[k];
      }
    }
  }

  lemma SlidesMatchCons(d: map<string, Json>, ds: seq<map<string, Json>>, s: Slide, ss: seq<Slide>)
    requires NormalizeSlide(d) == Success(s) && SlidesMatch(ds, ss)
    ensures SlidesMatch([d] + ds, [s] + ss)
  {
    forall k | 0 <= k < |[d] + ds|
      ensures NormalizeSlide(([d] + ds)[k]) == Success(([s] + ss)[k])
    {
      if k > 0 {
        assert ([d] + ds)[k] == ds[k - 1];
        assert ([s] + ss)[k] == ss[k - 1];
      }
    }
  }

  /** The slide loop succeeds exactly when no dict entry is a malformed table
      slide, and then yields one normalised slide per dict entry, in order. */
  lemma {:induction false} BuildSlidesSpec(items: seq<Json>)
    ensures BuildSlides(items).Success? <==> NoMalformed(SlideDicts(items))
    ensures BuildSlides(items).Success? ==> SlidesMatch(SlideDicts(items), BuildSlides(items).value)
  {
    if items != [] {
      BuildSlidesSpec(items[1..]);
      var ds := SlideDicts(items[1..]);
      var rest := BuildSlides(items[1..]);
      if !items[0].JObj? {
        assert SlideDicts(items) == ds;
        assert BuildSlides(items) == rest;
      } else {
        var d := items[0].fields;
        assert SlideDicts(items) == [d] + ds;
        NoMalformedCons(d, ds);
        var first := NormalizeSlide(d);
        if first.Success? && rest.Success? {
          assert BuildSlides(items) == Success([first.value] + rest.value);
          SlidesMatchCons(d, ds, first.value, rest.value);
        }
      }
    }
  }

  /** Every required key is present. */
  predicate HasRequiredFields(m: map<string, Json>)
  {
    "title" in m && "subtitle" in m && "slides" in m
  }

  /** `Presentation.from_dict`. */
  function FromDict(data: Json): (r: Result<Presentation, Error>)
    ensures !data.JObj? ==> r == Failure(ValueError("Input must be a dictionary"))
    ensures r.Success? ==> data.JObj? && HasRequiredFields(data.fields)
    ensures r.Success? ==> r.value.title == data.fields["title"] && r.value.subtitle == data.fields["subtitle"]
    ensures r.Success? ==> Iterate(data.fields["slides"]).Some?
                           && |r.value.slides| == |SlideDicts(Iterate(data.fields["slides"]).value)|
  {
    if !data.JObj? then Failure(ValueError("Input must be a dictionary"))
    else if "title" !in data.fields then Failure(ValueError("Missing required field: title"))
    else if "subtitle" !in data.fields then Failure(ValueError("Missing required field: subtitle"))
    else if "slides" !in data.fields then Failure(ValueError("Missing required field: slides"))
    else
      var m := data.fields;
      var themeData := Get(m, "theme", EmptyObj);
      if !themeData.JObj? then Failure(AttributeError)
      else
        var theme := BuildTheme(themeData.fields);
        match Iterate(m["slides"])
        case None => Failure(TypeError)
        case Some(items) =>
          BuildSlidesSpec(items);
          match BuildSlides(items)
          case Failure(e) => Failure(e)
          case Success(slides) => Success(Presentation(m["title"], m["subtitle"], theme, slides))
  }

  /** The error names the first missing required key, checked in the order
      title, subtitle, slides. */
  lemma FromDictMissingField(data: Json, k: nat)
    requires data.JObj? && k < |RequiredFields|
    requires RequiredFields[k] !in data.fields
    requires forall j :: 0 <= j < k ==> RequiredFields[j] in data.fields
    ensures FromDict(data) == Failure(ValueError("Missing required field: " + RequiredFields[k]))
  {
    if k == 0 {
      assert RequiredFields[0] == "title";
      assert "Missing required field: " + RequiredFields[0] == "Missing required field: title";
    } else if k == 1 {
      assert RequiredFields[0] == "title" && RequiredFields[1] == "subtitle";
      assert "title" in data.fields;
      assert "Missing required field: " + RequiredFields[1] == "Missing required field: subtitle";
    } else {
      assert RequiredFields == ["title", "subtitle", "slides"];
      assert RequiredFields[0] in data.fields && RequiredFields[1] in data.fields;
      assert "Missing required field: " + RequiredFields[2] == "Missing required field: slides";
    }
  }

  /** The theme comes field by field from the input's `theme` dict; without a
      `theme` key all three defaults are used; a `theme` that is not a dict
      makes `.get` raise `AttributeError`. */
  lemma FromDictTheme(data: Json)
    requires data.JObj? && HasRequiredFields(data.fields)
    ensures "theme" !in data.fields && FromDict(data).Success? ==> FromDict(data).value.theme == DefaultTheme
    ensures "theme" in data.fields && data.fields["theme"].JObj? && FromDict(data).Success?
            ==> FromDict(data).value.theme == BuildTheme(data.fields["theme"].fields)
    ensures "theme" in data.fields && !data.fields["theme"].JObj? ==> FromDict(data) == Failure(AttributeError)
  {
  }

  /** The slides are the dict entries of `slides`, in input order, each
      normalised; the conversion fails only for a malformed table slide or
      for a `slides` value that cannot be iterated. */
  lemma FromDictSlides(data: Json)
    requires data.JObj? && HasRequiredFields(data.fields)
    requires !("theme" in data.fields && !data.fields["theme"].JObj?)
    ensures Iterate(data.fields["slides"]).None? ==> FromDict(data) == Failure(TypeError)
    ensures Iterate(data.fields["slides"]).Some? ==>
              var dicts := SlideDicts(Iterate(data.fields["slides"]).value);
              && (FromDict(data).Success? <==> NoMalformed(dicts))
              && (FromDict(data).Success? ==> SlidesMatch(dicts, FromDict(data).value.slides))
  {
    if Iterate(data.fields["slides"]).Some? {
      BuildSlidesSpec(Iterate(data.fields["slides"]).value);
    }
  }

  // ---------------------------------------------------------------------
  // Writing a presentation back out as a dictionary, and reading it again.

  function ThemeToDict(t: Theme): Json
  {
    JObj(map["primary_color" := t.primaryColor, "secondary_color" := t.secondaryColor, "accent_color" := t.accentColor],
         ["primary_color", "secondary_color", "accent_color"])
  }

  function SlideToDict(s: Slide): Json
  {
    var keys := ["title", "type", "layout", "content", "visual_notes", "notes"];
    var base := map["title" := s.title, "type" := s.kind, "layout" := s.layout,
                    "content" := JArr(s.content), "visual_notes" := s.visualNotes, "notes" := s.notes];
    match s.tableData
    case None => JObj(base, keys)
    case Some(td) =>
      JObj(base["table_data" := JObj(map["headers" := td.headers, "rows" := td.rows], ["headers", "rows"])],
           keys + ["table_data"])
  }

  function SlidesToDicts(slides: seq<Slide>): (r: seq<Json>)
    ensures |r| == |slides|
  {
    if slides == [] then [] else [SlideToDict(slides[0])] + SlidesToDicts(slides[1..])
  }

  /** The dictionary a presentation corresponds to. */
  function ToDict(p: Presentation): Json
  {
    JObj(map["title" := p.title, "subtitle" := p.subtitle, "theme" := ThemeToDict(p.theme),
             "slides" := JArr(SlidesToDicts(p.slides))],
         ["title", "subtitle", "theme", "slides"])
  }

  /** A slide carries table data only when its type is exactly `table`. */
  predicate NormalizedSlide(s: Slide)
  {
    s.tableData.Some? ==> s.kind == JStr("table")
  }

  predicate Normalized(p: Presentation)
  {
    forall k :: 0 <= k < |p.slides| ==> NormalizedSlide(p.slides[k])
  }

  lemma SlideRoundTrip(s: Slide)
    requires NormalizedSlide(s)
    ensures NormalizeSlide(SlideToDict(s).fields) == Success(s)
  {
  }

  /** Every slide written out is a dict, so the slide loop visits them all. */
  lemma {:induction false} SlideDictsOfDicts(slides: seq<Slide>)
    ensures SlideDicts(SlidesToDicts(slides)) == seq(|slides|, k requires 0 <= k < |slides| => SlideToDict(slides[k]).fields)
  {
    if slides != [] {
      SlideDictsOfDicts(slides[1..]);
      var items := SlidesToDicts(slides);
      assert items[0] == SlideToDict(slides[0]);
      assert items[1..] == SlidesToDicts(slides[1..]);
    }
  }

  /** Slides written out as dicts and read back by the slide loop are the
      same slides. */
  lemma {:induction false} SlidesRoundTrip(slides: seq<Slide>)
    requires forall k :: 0 <= k < |slides| ==> NormalizedSlide(slides[k])
    ensures BuildSlides(SlidesToDicts(slides)) == Success(slides)
  {
    if slides != [] {
      SlidesRoundTrip(slides[1..]);
      SlideRoundTrip(slides[0]);
      var items := SlidesToDicts(slides);
      assert items[0] == SlideToDict(slides[0]);
      assert items[1..] == SlidesToDicts(slides[1..]);
      assert slides == [slides[0]] + slides[1..];
    }
  }

  /** Every presentation `from_dict` produces is normalised. */
  lemma FromDictNormalized(data: Json)
    requires FromDict(data).Success?
    ensures Normalized(FromDict(data).value)
  {
    var p := FromDict(data).value;
    var dicts := SlideDicts(Iterate(data.fields["slides"]).value);
    FromDictSlides(data);
    forall k | 0 <= k < |p.slides|
      ensures NormalizedSlide(p.slides[k])
    {
      assert NormalizeSlide(dicts[k]) == Success(p.slides[k]);
    }
  }

  /** Reading back the dictionary of a normalised presentation gives the
      same presentation. */
  lemma FromDictRoundTrip(p: Presentation)
    requires Normalized(p)
    ensures FromDict(ToDict(p)) == Success(p)
  {
    var m := ToDict(p).fields;
    SlidesRoundTrip(p.slides);
    ThemeRoundTrip(p.theme);
    assert HasRequiredFields(m);
    assert Get(m, "theme", EmptyObj) == ThemeToDict(p.theme);
    assert Iterate(m["slides"]) == Some(SlidesToDicts(p.slides));
  }

  /** Reading back the dictionary of a theme gives the same theme. */
  lemma ThemeRoundTrip(t: Theme)
    ensures BuildTheme(ThemeToDict(t).fields) == t
  {
  }

  /** `from_dict` is idempotent: converting its result back to a dictionary
      and converting again gives the same presentation. */
  lemma FromDictIdempotent(data: Json)
    requires FromDict(data).Success?
    ensures FromDict(ToDict(FromDict(data).value)) == FromDict(data)
  {
    FromDictNormalized(data);
    FromDictRoundTrip(FromDict(data).value);
  }
}

=== FILE: text.dfy ===
/** The Python string operations the application relies on: `find`, `rfind`,
    slicing, `split`, `strip`, `lstrip`, `lower` and substring membership. */
module Text {

  /** Index of the first `c` in `s`, or -1 when there is none (`str.find`). */
  function Find(s: string, c: char): (r: int)
    ensures r == -1 <==> c !in s
    ensures r != -1 ==> 0 <= r < |s| && s[r] == c && c !in s[..r]
  {
    if |s| == 0 then -1
    else if s[0] == c then 0
    else
      var k := Find(s[1..], c);
      if k == -1 then -1
      else
        assert s[..k + 1] == [s[0]] + s[1..][..k];
        k + 1
  }

  /** Index of the last `c` in `s`, or -1 when there is none (`str.rfind`). */
  function RFind(s: string, c: char): (r: int)
    ensures r == -1 <==> c !in s
    ensures r != -1 ==> 0 <= r < |s| && s[r] == c && c !in s[r + 1..]
  {
    if |s| == 0 then -1
    else if s[|s| - 1] == c then |s| - 1
    else
      var k := RFind(s[..|s| - 1], c);
      assert k != -1 ==> s[k + 1..] == s[..|s| - 1][k + 1..] + [s[|s| - 1]];
      assert s == s[..|s| - 1] + [s[|s| - 1]];
      k
  }

  /** Python's normalisation of a slice bound: negative bounds count from the
      end, and every bound is clamped to `0..n`. */
  function ClampIndex(k: int, n: nat): (r: nat)
    ensures r <= n
    ensures 0 <= k <= n ==> r == k
  {
    if k < 0 then (if k + n < 0 then 0 else k + n)
    else if k > n then n
    else k
  }

  /** `s[i:j]`: never fails, and is empty when the normalised start is not
      before the normalised end. */
  function Slice(s: string, i: int, j: int): (r: string)
    ensures 0 <= i <= j <= |s| ==> r == s[i..j]
    ensures 0 <= j <= i ==> r == []
  {
    var a := ClampIndex(i, |s|);
    var b := ClampIndex(j, |s|);
    if a < b then s[a..b] else []
  }

  /** `sep.join(parts)` for a one-character separator. */
  function Join(parts: seq<string>, sep: char): string
  {
    if |parts| == 0 then []
    else if |parts| == 1 then parts[0]
    else parts[0] + [sep] + Join(parts[1..], sep)
  }

  /** `s.split(sep)` for a one-character separator: the pieces between
      separators, including empty ones, so that there is always one more
      piece than there are separators. */
  function Split(s: string, sep: char): (parts: seq<string>)
    ensures |parts| >= 1
  {
    if |s| == 0 then [[]] else Prepend(s[0], Split(s[1..], sep), sep)
  }

  /** The pieces of `[c] + t` from the pieces of `t`: a separator starts a new
      empty piece, any other character joins the first piece. */
  function Prepend(c: char, parts: seq<string>, sep: char): (r: seq<string>)
    requires |parts| >= 1
    ensures |r| >= 1
  {
    if c == sep then [[]] + parts else [[c] + parts[0]] + parts[1..]
  }

  /** No piece of a split contains the separator. */
  lemma {:induction false} SplitPiecesHaveNoSep(s: string, sep: char)
    ensures forall k :: 0 <= k < |Split(s, sep)| ==> sep !in Split(s, sep)[k]
  {
    if |s| > 0 {
      SplitPiecesHaveNoSep(s[1..], sep);
    }
  }

  /** Splitting and re-joining gives back the original string. */
  lemma {:induction false} JoinSplit(s: string, sep: char)
    ensures Join(Split(s, sep), sep) == s
  {
    if |s| > 0 {
      JoinSplit(s[1..], sep);
      var rest := Split(s[1..], sep);
      if s[0] != sep {
        if |rest| == 1 {
          assert Split(s, sep) == [[s[0]] + rest[0]];
        } else {
          assert Split(s, sep)[1..] == rest[1..];
        }
      }
      assert s == [s[0]] + s[1..];
    }
  }

  /** Joining separator-free pieces and splitting again gives back the pieces. */
  lemma {:induction false} SplitJoin(parts: seq<string>, sep: char)
    requires |parts| >= 1
    requires forall k :: 0 <= k < |parts| ==> sep !in parts[k]
    ensures Split(Join(parts, sep), sep) == parts
  {
    if |parts| == 1 {
      SplitNoSep(parts[0], sep);
    } else {
      SplitJoin(parts[1..], sep);
      SplitConcat(parts[0], Join(parts[1..], sep), sep);
      SplitNoSep(parts[0], sep);
    }
  }

  /** A separator-free string splits into itself. */
  lemma {:induction false} SplitNoSep(s: string, sep: char)
    requires sep !in s
    ensures Split(s, sep) == [s]
  {
    if |s| > 0 {
      SplitNoSep(s[1..], sep);
      assert s == [s[0]] + s[1..];
    }
  }

  /** One unfolding of `Split` on a string with a known first character. */
  lemma SplitCons(c: char, t: string, sep: char)
    ensures Split([c] + t, sep) == Prepend(c, Split(t, sep), sep)
  {
    assert ([c] + t)[1..] == t;
  }

  lemma PrependConcat(c: char, x: seq<string>, y: seq<string>, sep: char)
    requires |x| >= 1
    ensures Prepend(c, x + y, sep) == Prepend(c, x, sep) + y
  {
    assert (x + y)[0] == x[0];
    assert (x + y)[1..] == x[1..] + y;
  }

  lemma SplitConcatStep(a: string, b: string, sep: char)
    requires |a| > 0
    requires Split(a[1..] + [sep] + b, sep) == Split(a[1..], sep) + Split(b, sep)
    ensures Split(a + [sep] + b, sep) == Split(a, sep) + Split(b, sep)
  {
    var t := a[1..] + [sep] + b;
    assert a + [sep] + b == [a[0]] + t;
    assert a == [a[0]] + a[1..];
    SplitCons(a[0], t, sep);
    SplitCons(a[0], a[1..], sep);
    PrependConcat(a[0], Split(a[1..], sep), Split(b, sep), sep);
  }

  /** Splitting the concatenation `a + sep + b` splits `a` and `b` separately:
      a dotted path made of two dotted paths has both sets of segments. */
  lemma {:induction false} SplitConcat(a: string, b: string, sep: char)
    ensures Split(a + [sep] + b, sep) == Split(a, sep) + Split(b, sep)
  {
    if |a| == 0 {
      assert a + [sep] + b == [sep] + b;
      assert ([sep] + b)[1..] == b;
    } else {
      SplitConcat(a[1..], b, sep);
      SplitConcatStep(a, b, sep);
    }
  }

  /** The characters Python's `str.strip()` treats as whitespace. */
  predicate IsSpace(c: char)
  {
    || c == ' '
    || ('\t' <= c <= '\r')
    || ('\U{1C}' <= c <= '\U{1F}')
    || c == '\U{85}' || c == '\U{A0}' || c == '\U{1680}'
    || ('\U{2000}' <= c <= '\U{200A}')
    || c == '\U{2028}' || c == '\U{2029}' || c == '\U{202F}' || c == '\U{205F}' || c == '\U{3000}'
  }

  function StripStart(s: string): (r: string)
    ensures |r| <= |s| && r == s[|s| - |r|..]
    ensures forall i :: 0 <= i < |s| - |r| ==> IsSpace(s[i])
    ensures |r| > 0 ==> !IsSpace(r[0])
  {
    if |s| > 0 && IsSpace(s[0]) then
      var r := StripStart(s[1..]);
      assert forall i :: 1 <= i < |s| - |r| ==> s[i] == s[1..][i - 1];
      r
    else s
  }

  function StripEnd(s: string): (r: string)
    ensures |r| <= |s| && r == s[..|r|]
    ensures forall i :: |r| <= i < |s| ==> IsSpace(s[i])
    ensures |r| > 0 ==> !IsSpace(r[|r| - 1])
  {
    if |s| > 0 && IsSpace(s[|s| - 1]) then
      var r := StripEnd(s[..|s| - 1]);
      assert forall i :: |r| <= i < |s| - 1 ==> s[i] == s[..|s| - 1][i];
      r
    else s
  }

  /** `s.strip()`: `s` without its leading and trailing whitespace. */
  function Strip(s: string): (r: string)
    ensures |r| <= |s|
    ensures |r| > 0 ==> !IsSpace(r[0]) && !IsSpace(r[|r| - 1])
    ensures r == [] <==> forall i :: 0 <= i < |s| ==> IsSpace(s[i])
  {
    var t := StripStart(s);
    var r := StripEnd(t);
    assert |r| > 0 ==> r[0] == t[0];
    assert forall i :: |s| - |t| <= i < |s| ==> s[i] == t[i - (|s| - |t|)];
    r
  }

  /** `s.lstrip(c)`: `s` without its leading run of `c`. */
  function LStrip(s: string, c: char): (r: string)
    ensures |r| <= |s| && r == s[|s| - |r|..]
    ensures forall i :: 0 <= i < |s| - |r| ==> s[i] == c
    ensures |r| > 0 ==> r[0] != c
  {
    if |s| > 0 && s[0] == c then
      var r := LStrip(s[1..], c);
      assert forall i :: 1 <= i < |s| - |r| ==> s[i] == s[1..][i - 1];
      r
    else s
  }

  function LowerChar(c: char): char
  {
    if 'A' <= c <= 'Z' then (c as int + 32) as char else c
  }

  /** `s.lower()` restricted to the ASCII letters; see README for why this is
      exact for the comparisons the renderer makes. */
  function Lower(s: string): (r: string)
    ensures |r| == |s|
    ensures forall i :: 0 <= i < |s| ==> r[i] == LowerChar(s[i])
  {
    if |s| == 0 then [] else [LowerChar(s[0])] + Lower(s[1..])
  }

  /** `sub in s` for strings: `sub` occurs contiguously in `s`. */
  predicate Contains(s: string, sub: string)
    decreases |s|
  {
    |sub| <= |s| && (s[..|sub|] == sub || Contains(s[1..], sub))
  }

  /** `sub` occurs in `s` starting at index `i`. */
  predicate OccursAt(s: string, sub: string, i: int)
  {
    0 <= i <= |s| - |sub| && s[i..i + |sub|] == sub
  }

  /** Substring membership agrees with the positional definition. */
  lemma {:induction false} ContainsAt(s: string, sub: string)
    ensures Contains(s, sub) <==> exists i :: OccursAt(s, sub, i)
    decreases |s|
  {
    if |sub| <= |s| && s[..|sub|] == sub {
      assert OccursAt(s, sub, 0);
    } else if |sub| <= |s| {
      ContainsAt(s[1..], sub);
      if exists i :: OccursAt(s, sub, i) {
        var i :| OccursAt(s, sub, i);
        assert i > 0;
        assert s[1..][i - 1..i - 1 + |sub|] == s[i..i + |sub|];
        assert OccursAt(s[1..], sub, i - 1);
      }
      if Contains(s[1..], sub) {
        var i :| OccursAt(s[1..], sub, i);
        assert s[1..][i..i + |sub|] == s[i + 1..i + 1 + |sub|];
        assert OccursAt(s, sub, i + 1);
      }
    }
  }
}

=== FILE: wrappers.dfy ===
/** Optional values and success/failure results, used wherever the Python code
    returns `None` or raises instead of producing a value. */
module Wrappers {

  datatype Option<+T> = None | Some(value: T)

  datatype Result<+T, +E> = Success(value: T) | Failure(error: E)
}
